=== FILE: README.md ===
# Log-anchoring integrity pipeline, modelled in Dafny

The system keeps application log entries in an off-chain database and anchors
a SHA-256 hash of each entry on a Hyperledger Fabric ledger. A client tails a
log file and writes each new line. Writing stores the entry, which assigns it
an id, and then submits `CreateAsset(id, hash, clientId)` to the chaincode.
Reading lists the ledger records, reloads the entries they name, and re-hashes
each one. An alteration that changes the digest of the entry's hashed string
shows up as not valid; moving text between fields does not. The model's
store returns rows exactly as written; the deployed PostgreSQL store keeps
timestamps to the microsecond only (see "## Left out"). A web
dashboard filters the resulting table.

The model covers:

- `Ledger`: the chaincode, over a world state that is a `map<string, Asset>`.
  - `CreateAsset` with its composite key and its refusal to overwrite.
  - `GetAllAssets` over a range scan given as a sequence of iterator steps.
  - `GetAssetsWithFilter` over an oracle that stands for the CouchDB paginated query.
- `Entry`: the log entry with its canonical string, its hash, and its validation
  against a store modelled as `map<nat, LogEntry>` with fresh-id allocation.
- `Client`: the write and read protocols. The Fabric gateway is described by
  what it reports: the endorsing environment, whether the transaction was
  dispatched, and the commit status. `WriteLog` builds the entry and hands it
  to `StoreAndAnchor`, which stores, hashes, submits and checks the commit.
  The write-path lemmas in `Integrity` are stated for `StoreAndAnchor` on any
  entry, so they cover every entry `WriteLog` can build.
- `StableSort`: the stable timestamp sort used when reading.
- `Integrity`: lemmas that tie the two stores together.
- `Tail`: the file watcher, as a state machine over file contents and events.
- `Dashboard`: the dashboard's filter.

The helper modules model Go library behaviour that the code relies on:

- `Base` holds `Option`, `Result`, the error kinds and Go's nil-versus-empty slices.
- `Seqs` holds order-preserving filtering and its index specification.
- `Text` holds `fmt` decimal rendering, `strconv.Atoi` with its error ignored,
  `uint()` conversion, `strings.TrimSpace` and Go's string ordering.
- `Hex` holds lowercase hex encoding.

Some operations come from outside and are parameters of the model:

- SHA-256 and RFC 3339 time formatting are fields of a `Primitives` value.
  Any function of the right type can be supplied; a digest is exactly 32 bytes.
- The transaction timestamp, `uuid.New` and `time.Now` used by the chaincode
  are fields of `TxEnv`, as are whether the peer's `GetState` and `PutState`
  calls succeed.
- Database reachability is a boolean.
- The JSON decoding of evaluate results is a `Payload`: empty, decoded, or undecodable.

Two behaviours of the code worth noting:

- The hash input lists the fields in declaration order: ID, Content, Timestamp,
  Source (log-client/internal/log-entry.go:11-16, 30-45), with nothing
  between them.
- The file watcher drops an unterminated trailing fragment rather than
  waiting for the rest of the line. `bufio.Reader.ReadString` consumes
  the fragment it returns together with `io.EOF`, and the loop then breaks
  (log-client/internal/utils.go:53-58). `Tail.SplitLineLosesPrefix` shows a
  line written in two parts being delivered without its first part.

## Model

| member | source | states |
|---|---|---|
| Text.Decimal | log-client/internal/log-entry.go:43 | `%v` of an unsigned id is a non-empty digit string with no leading zero except for 0 itself |
| Text.DecimalRoundTrip | log-client/internal/log-entry.go:43 | reading the decimal rendering back as digits gives the number |
| Text.DecimalInjective | log-client/internal/contracts.go:79 | distinct ids render as distinct decimal strings, so the submitted blob path determines the id |
| Text.AtoiValue | log-client/internal/contracts.go:55 | `strconv.Atoi` with its error ignored: the int64 bound of the sign when the leading digits already exceed 2^64 - 1 (a range error, whatever follows them), otherwise 0 for text that is not a signed decimal, otherwise its value clamped to the int64 range |
| Text.RangeOverflowValue | log-client/internal/contracts.go:55 | the digit-by-digit scan reports a range error exactly when the value of the leading digit run exceeds 2^64 - 1 |
| Text.AtoiRangeBeforeSyntax | log-client/internal/contracts.go:55 | a digit run past 2^64 - 1 followed by a non-digit, such as `99999999999999999999x`, is not a signed decimal yet parses to MaxInt64, or to MinInt64 with a minus sign |
| Text.AtoiDecimal | log-client/internal/contracts.go:55 | parsing the decimal rendering of an id up to 2^63-1 gives the id back |
| Text.ToUint64 | log-client/internal/contracts.go:56 | `uint(dbId)` wraps modulo 2^64 and is the identity on non-negative values |
| Text.TrimLeft | log-client/internal/contracts.go:66 | the result is a suffix with no leading white space, and only white space was removed |
| Text.TrimRight | log-client/internal/contracts.go:66 | the result is a prefix with no trailing white space, and only white space was removed |
| Text.TrimSpace | log-client/internal/contracts.go:66 | the result occurs in the input with only white space around it, and starts and ends with non-space |
| Text.IsSpaceChars | log-client/internal/contracts.go:66 | the white space that trimming removes is exactly `unicode.IsSpace`'s set: tab, line feed, vertical tab, form feed, carriage return, space, U+0085, U+00A0 and the Unicode White_Space characters above Latin-1 |
| Text.LessIrreflexive | log-client/internal/contracts.go:46 | Go's string `<` is irreflexive |
| Text.LessTransitive | log-client/internal/contracts.go:46 | Go's string `<` is transitive |
| Text.LessTotal | log-client/internal/contracts.go:46 | any two distinct strings are ordered one way or the other |
| Text.NotLessTransitive | log-client/internal/contracts.go:46 | "not less than" is transitive, as a stable sort's order needs |
| Hex.Encode | log-client/internal/log-entry.go:49 | hex output has two lowercase hex digits per byte |
| Hex.DecodeEncode | log-client/internal/log-entry.go:49 | decoding the hex encoding gives back the bytes |
| Hex.EncodeInjective | log-client/internal/log-entry.go:49 | different digests have different hex strings |
| Entry.Canonical | log-client/internal/log-entry.go:26-45 | the hash input is decimal id, content, RFC 3339 time in UTC and source, concatenated in that order with no separators |
| Entry.Hash | log-client/internal/log-entry.go:26-50 | the hash is 64 lowercase hex characters |
| Entry.HashDecodesToDigest | log-client/internal/log-entry.go:47-49 | the hash is the hex of SHA-256 of the canonical string |
| Entry.HashEqualIffDigestEqual | log-client/internal/log-entry.go:47-49 | two entries' hashes are equal exactly when their digests are |
| Entry.HashIgnoresZone | log-client/internal/log-entry.go:41 | the timestamp's zone does not affect the hash, since it is converted to UTC first |
| Entry.IdContentCollision | log-client/internal/log-entry.go:30-45 | entries (1, "2x") and (12, "x") are different but hash the same |
| Entry.FieldShiftCollision | log-client/internal/log-entry.go:30-45 | moving a rendered timestamp between the content and the source fields gives different entries with the same hash |
| Entry.LoadFromDB | log-client/internal/log-entry.go:82-93 | the row under the id when the store is reachable and holds it; otherwise the not-found or unavailable error |
| Entry.WriteToDB | log-client/internal/log-entry.go:95-105 | a reachable store accepts the insert exactly when the id to use (the next sequence value for id 0, which then advances, otherwise the given id) is positive, in range and unused and neither content nor source holds U+0000, which a PostgreSQL text column rejects; a successful insert adds exactly that row and changes no other; an unreachable store is an error |
| Entry.ValidateHash | log-client/internal/log-entry.go:67-80 | valid exactly when the hash of the row stored under the entry's id equals the given hash; the reloaded row replaces the in-memory one; a failed load is the error |
| Entry.ValidationIgnoresInMemoryFields | log-client/internal/log-entry.go:68 | only the in-memory entry's id affects validation |
| Entry.GetDetailedLogEntry | log-client/internal/log-entry.go:52-65 | the reloaded row's id, content, timestamp and source with the validation verdict, or the load error |
| Ledger.AssetExists | chaincode-go/chaincode/smartcontract.go:74-81 | whether the key is present, or an error when the state cannot be read |
| Ledger.CreateAsset | chaincode-go/chaincode/smartcontract.go:37-71 | the key is "asset:" + timestamp + ":" + uuid; an existing key is refused; a failed state read or state write is an error; otherwise exactly that key is added, holding the given blob path, hash and source with the key as LogID, and every other key is unchanged |
| Ledger.CreateAssetPreservesWellKeyed | chaincode-go/chaincode/smartcontract.go:57-58 | every record stays filed under its own LogID |
| Ledger.CreateAssetNeverOverwrites | chaincode-go/chaincode/smartcontract.go:49-55 | repeating a creation under the same key fails with that key as the error |
| Ledger.EndorsementsDiverge | chaincode-go/chaincode/smartcontract.go:46-62 | two endorsements that draw a different uuid or clock reading produce different world states |
| Ledger.Collect | chaincode-go/chaincode/smartcontract.go:92-103 | an iteration yields all values in order when every step succeeds; otherwise the first failing step's error |
| Ledger.SourceFilterFacts | chaincode-go/chaincode/smartcontract.go:104-106 | the source filter keeps exactly the assets whose Source equals it, in order, and keeps all of them for an empty filter |
| Ledger.GetAllAssets | chaincode-go/chaincode/smartcontract.go:84-110 | scan errors propagate, and a failing iterator step's own error is returned for the first such step; on success the result is exactly the order-preserving subsequence the source filter admits, and every asset when the filter is empty |
| Ledger.GetAllAssetsReturnsWorldState | chaincode-go/chaincode/smartcontract.go:85-109 | an unfiltered scan over all keys returns every record of the world state and nothing else |
| Ledger.Int32 | chaincode-go/chaincode/smartcontract.go:118 | `int32(pageSize)` wraps into the 32-bit range and is the identity inside it |
| Ledger.ConstructQueryResponseFromIterator | chaincode-go/chaincode/smartcontract.go:157-173 | all assets in iteration order, nil exactly when there are none, or the error of the first failing iterator step |
| Ledger.ProbeNextPage | chaincode-go/chaincode/smartcontract.go:129-138 | no probe and no next page for the "nil" bookmark; otherwise the probe fails exactly when its query fails, and a successful probe reports a next page exactly when it fetched something |
| Ledger.GetAssetsWithFilter | chaincode-go/chaincode/smartcontract.go:112-155 | no result exactly when the first query, the iteration or the probe fails; otherwise the records are a non-nil list of the page's assets, the count and bookmark are copied, and there is a next page exactly when the bookmark is not "nil" and the size-1 probe fetched something |
| StableSort.InsertSorted | log-client/internal/contracts.go:45-47 | inserting a record into a timestamp-sorted sequence keeps it sorted |
| StableSort.InsertStable | log-client/internal/contracts.go:45-47 | the inserted record goes after every record with the same timestamp |
| StableSort.SortByTimestamp | log-client/internal/contracts.go:45-47 | the result is sorted by Go string order, a permutation of the input, and keeps records with equal timestamps in input order |
| StableSort.StableSortUnique | log-client/internal/contracts.go:45-47 | any sorted sequence with the same per-timestamp order as the input is exactly the result |
| StableSort.SortedWithSameTiesEqual | log-client/internal/contracts.go:45-47 | two sorted sequences with the same records per timestamp are equal |
| Client.BlobIdOfDecimal | log-client/internal/contracts.go:55-56 | the blob path written for an id is parsed back to that id when reading |
| Client.BlobId | log-client/internal/contracts.go:55-56 | the id is `uint` of the `strconv.Atoi` value, range-error bound included: below 2^64, congruent to it modulo 2^64, and equal to it when it is not negative |
| Client.Resolve | log-client/internal/contracts.go:54-56 | the stored row a blob path names, or the zero entry when it cannot be loaded; no error is reported |
| Client.Join | log-client/internal/contracts.go:53-59 | one entry and one hash per record, index-aligned: the hash is the record's and the entry is what its blob path resolves to |
| Client.ReadLogs | log-client/internal/contracts.go:29-62 | evaluate errors propagate; an empty result is an empty answer; an undecodable one is an error; otherwise the records sorted stably by timestamp and joined index by index |
| Client.ReadLogsWithPagination | log-client/internal/contracts.go:93-117 | the page's records joined index by index in ledger order, with bookmark and next-page flag passed through; an empty or undecodable result is an error |
| Client.Anchor | log-client/internal/contracts.go:79-88 | the ledger changes only through the endorsed CreateAsset; an endorsement failure is reported with its cause; a commit reported unsuccessful leaves the ledger unchanged, and when the endorsement succeeded and the transaction was dispatched the error is CommitRejected with the transaction id and status code; after a successful endorsement an undispatched transaction is SubmitFailed with the ledger unchanged, and an unavailable commit status is CommitStatusFailed |
| Client.NewEntry | log-client/internal/contracts.go:65-68 | the new entry has no id yet, the current time and the client id as source, and its content is the input with only white space removed at either end and none left at its ends |
| Client.StoreAndAnchor | log-client/internal/contracts.go:69-90 | a failed store write submits nothing and leaves both stores as they were; otherwise the stored entry is the one hashed, the submitted arguments are its decimal id, its hash and the client id, and the ledger and result are what the commit of that submission yields |
| Client.WriteLog | log-client/internal/contracts.go:64-91 | the entry stored carries the trimmed content, the current time and the client id as source; a failed store write changes nothing; otherwise the submitted arguments are the decimal assigned id, the hash of the stored entry and the client id, and the ledger and the result are those of anchoring exactly these arguments |
| Integrity.VerifiedIffAnchored | log-client/internal/log-entry.go:67-80 | reading a record back verifies exactly when its blob path names a stored row whose hash it carries |
| Integrity.StoreAndAnchorPreservesConsistency | log-client/internal/contracts.go:69-90 | storing and anchoring any entry keeps the store valid and every ledger record anchored in the store, whatever the gateway reports |
| Integrity.WriteLogPreservesConsistency | log-client/internal/contracts.go:64-91 | a WriteLog call keeps every ledger record anchored in the store, whatever the gateway reports |
| Integrity.AnchorsSubmitted | log-client/internal/contracts.go:79-90 | a write that reports success has added a record under a fresh key carrying the submitted blob path and hash, the client id as source and the endorsement time |
| Integrity.AnchorsStoredEntry | log-client/internal/contracts.go:69-90 | the record of a successful write, read back through its submitted blob path, verifies against the row that was stored |
| Integrity.UnanchoredWriteFails | log-client/internal/contracts.go:79-90 | when the entry was stored but the ledger is unchanged, the write reports failure |
| Integrity.OrphanRow | log-client/internal/contracts.go:69-90 | when the entry was stored but the ledger is unchanged, the new row is one no ledger record names |
| Integrity.RejectedCommitLeavesLedger | log-client/internal/contracts.go:84-88 | a commit reported unsuccessful leaves the ledger unchanged and the write fails; when the entry was stored, endorsed and dispatched, the error names the transaction id and status code |
| Integrity.ReadLogsAllVerified | log-client/internal/contracts.go:29-62 | on a consistent state, every entry ReadLogs returns for ledger records verifies against its hash |
| Integrity.PageAllVerified | log-client/internal/contracts.go:93-117 | on a consistent state, every entry of a page of ledger records verifies against its hash |
| Integrity.ScanRecordsOnLedger | chaincode-go/chaincode/smartcontract.go:84-110 | everything GetAllAssets returns from a scan of the ledger is on the ledger |
| Integrity.ScanReadAllVerified | log-client/internal/contracts.go:29-62 | a scan of a consistent ledger, filtered and read back, verifies every entry |
| Integrity.PageQueryAllVerified | chaincode-go/chaincode/smartcontract.go:112-155 | a page served from a consistent ledger and read back verifies every entry and carries the chaincode's bookmark and next-page flag |
| Integrity.TamperDetected | log-client/internal/log-entry.go:67-80 | replacing an anchored row with one whose hash differs makes its record read back as not verified |
| Integrity.ReplaceAnchoredRow | log-client/internal/log-entry.go:67-80 | after a record's row is replaced, reading the record back verifies exactly when the replacement hashes to the recorded hash |
| Integrity.CanonicalChangeDetected | log-client/internal/log-entry.go:26-50 | replacing an anchored row is detected exactly when SHA-256 gives the forged row's hashed string a digest different from the original's |
| Integrity.TamperUndetected | log-client/internal/log-entry.go:30-45 | a row altered by moving text between fields still verifies, whatever SHA-256 is |
| Tail.ReadString | log-client/internal/utils.go:53 | the text up to and including the next newline, or the rest of the file without a newline |
| Tail.Drain | log-client/internal/utils.go:52-60 | a drain consumes all unread text as complete lines followed by at most one unterminated fragment |
| Tail.DrainUnique | log-client/internal/utils.go:52-60 | a drain is the only split of the unread text into lines and a final fragment, so it stops at the first read without a newline |
| Tail.Open | log-client/internal/utils.go:24-30 | reading starts at the file's size when it is opened, with nothing delivered |
| Tail.Step | log-client/internal/utils.go:48-67 | appends only grow the file and no other event changes it; only a write notification to a running watcher reads, and it then reads to the end of the file; the stop signal ends the loop |
| Tail.StepPreservesInv | log-client/internal/utils.go:48-67 | the text consumed is always exactly the text appended since opening, read as well-formed chunks |
| Tail.Run | log-client/internal/utils.go:48-67 | the loop over events keeps the reading start, only grows the file, and never restarts a stopped watcher |
| Tail.RunConcat | log-client/internal/utils.go:48-67 | running two batches of events in turn is running them together, so the loop carries no state beyond the watcher |
| Tail.RunPreservesInv | log-client/internal/utils.go:48-67 | over any event sequence the invariant holds, the file only grows, and chunks once read are never taken back |
| Tail.DeliversOnlyNewLines | log-client/internal/utils.go:24-59 | content present when the file was opened is never delivered, and every delivered line ends in its only newline |
| Tail.StoppedDeliversNothing | log-client/internal/utils.go:64-65 | after the stop signal no further line is delivered |
| Tail.CatchesUp | log-client/internal/utils.go:51-60 | after a write notification everything appended has been consumed and the drain's lines are delivered after the earlier ones |
| Tail.SplitLineLosesPrefix | log-client/internal/utils.go:53-58 | a line written as "ab" then "c\n" with a notification in between is delivered as "c\n" |
| Dashboard.Includes | log-dashboard/src/components/logs.tsx:27 | `includes` holds exactly when the search text occurs at some position |
| Dashboard.IncludesPrefix | log-dashboard/src/components/logs.tsx:27 | if a longer search text occurs, so does its prefix |
| Dashboard.ToLowerIdempotent | log-dashboard/src/components/logs.tsx:27-29 | lower-casing twice is lower-casing once |
| Dashboard.Shown | log-dashboard/src/components/logs.tsx:27-31 | a row is shown exactly when both lower-cased search texts occur in the lower-cased fields, the verification state matches or is unset, and the date filter is empty or a prefix of the timestamp |
| Dashboard.FilteredLogs | log-dashboard/src/components/logs.tsx:26-32 | exactly the rows for which all four filter conditions hold, in table order |
| Dashboard.ClearFilters | log-dashboard/src/components/logs.tsx:34-39 | the cleared filter state admits every row |
| Dashboard.ClearedShowsAll | log-dashboard/src/components/logs.tsx:34-39 | after clearing, the table shows all rows unchanged |
| Dashboard.SearchIgnoresCase | log-dashboard/src/components/logs.tsx:27-29 | lower-casing the search texts does not change the rows shown |
| Dashboard.LongerSearchNarrows | log-dashboard/src/components/logs.tsx:27 | extending the content search never brings a row back |
| Dashboard.VerifiedChoice | log-dashboard/src/components/logs.tsx:51 | the select's empty value means all; any other value means verified exactly when it is "true" |
| Dashboard.VerifiedChoiceRoundTrip | log-dashboard/src/components/logs.tsx:51 | choosing the value the select displays reproduces the filter state |
| Dashboard.SampleFilter | log-dashboard/src/components/logs.tsx:14-32 | filtering the sample rows for verified entries of "client a" keeps the first and third rows |

## Left out

- SHA-256, RFC 3339 formatting, `uuid.New` and the clocks are parameters, not
  implementations. Properties hold for every choice, or name the digests they
  depend on.
- The chaincode's key timestamp (`YYYYMMDDTHHMMSSZ` of the transaction time) is
  given already formatted. A failure to obtain it is `txStamp == None`.
- JSON encoding and decoding is left out; evaluate results are given as
  decoded values. The ledger stores assets, not their JSON bytes.
- The CouchDB selector built with `Sprintf` is not modelled. The paginated
  query is an oracle keyed by source, page size and bookmark, so the page
  contents, page-size limits and bookmark format are whatever the oracle returns.
- The probe's result iterator is never closed in the source; resource handling is not modelled.
- Fabric consensus and the gateway are left out. Endorsement, dispatch and the
  commit status are what a `Client.Gateway` value reports.
- Client.WriteLog: the CreateAsset endorsement runs on the ledger state the
  model is given. A concurrent writer between endorsement and commit is not modelled.
- The database is a map with an id sequence. The connection set-up and
  migration in log-client/internal/database.go are not part of this model.
  - The source's store is PostgreSQL through GORM (log-client/internal/database.go:6-18),
    whose timestamp column keeps microseconds. WriteLog hashes `time.Now()` with
    nanoseconds, so in the deployed system a reloaded entry generally hashes
    differently from the one written and fails validation. The model's store
    returns rows exactly as written.
  - Integrity.AnchorsStoredEntry, Integrity.ReadLogsAllVerified, Integrity.ScanReadAllVerified,
    Integrity.PageAllVerified and Integrity.PageQueryAllVerified hold only for a store
    that returns timestamps unchanged; they do not hold for the deployed PostgreSQL store.
  - Entry.WriteToDB: a failed insert for id 0 leaves the model's sequence where it was.
    PostgreSQL does not roll back a sequence value, so in the source the next id still advances.
  - `WriteToDB` wraps the connection's `err`, which is nil at that point, so
    its message loses the cause. Only the error kind is modelled.
- Strings are sequences of Unicode code points, so a log line holding invalid UTF-8
  bytes cannot be represented; Go keeps such bytes and `strings.TrimSpace` and
  `%v` pass them through.
- Dashboard.ToLower: lower-cases the ASCII letters only. JavaScript's
  `toLowerCase` covers all of Unicode.
- Dashboard rows come from the sample list, as in the source. Fetching,
  rendering and the other dashboard components are left out.
- The fsnotify watcher, OS file handles and the `select` over channels are
  left out. Events arrive as one sequence, and the file only grows by appends.
  Closing errors are only logged in the source.
- The HTTP gateway (log-client/cmd/gateway/main.go) and the two command-line
  programs are not part of this model.
  - The gateway carries on after answering 400 for a bad page size (lines 75-77).
  - The gateway dereferences a nil entry when `GetDetailedLogEntry` fails (lines 88-89).
  - The write-log program's `createAsset` never sets `Source`.

=== FILE: base.dfy ===
/** Shared vocabulary of the log-anchoring pipeline: optional values, outcomes,
    bytes, Go slices and the error taxonomy used by both stores and the ledger. */
module Base {

  /** An octet, as held in a Go `[]byte`. */
  newtype byte = x: int | 0 <= x < 256

  datatype Option<+T> = None | Some(value: T)

  /** Every error the pipeline can surface. The Go code returns `error` values
      whose text differs; only the distinctions callers observe are kept. */
  datatype Error =
    | StoreUnavailable                          // the off-chain database cannot be reached
    | WriteFailed                               // the insert was refused (duplicate key, id space exhausted)
    | NotFound                                  // no row under the requested id
    | TxTimestampFailed                         // the peer could not supply the transaction timestamp
    | StateReadFailed                           // reading the world state failed
    | AlreadyExists(key: string)                // a record already sits under the derived key
    | StateWriteFailed                          // writing the world state failed
    | RangeQueryFailed                          // the range or rich query could not be opened
    | IteratorFailed                            // advancing or decoding a query iterator failed
    | EvaluateFailed                            // the evaluate call to the ledger failed
    | MalformedPayload                          // the evaluate payload is not the expected JSON
    | EndorsementFailed(cause: Error)           // the chaincode refused the proposal
    | SubmitFailed                              // the endorsed transaction could not be dispatched
    | CommitStatusFailed                        // no commit outcome could be obtained
    | CommitRejected(transactionId: string, code: int)  // the commit was reported unsuccessful

  datatype Result<+T> = Ok(value: T) | Err(error: Error)

  /** A Go slice, which is either nil or a (possibly empty) non-nil slice.
      The two read the same inside Go but encode differently as JSON (`null` vs `[]`). */
  datatype Slice<+T> = Nil | Slice(elems: seq<T>) {

    /** The elements, treating nil as the empty slice as Go's `range` and `len` do. */
    function Items(): seq<T> {
      if Nil? then [] else elems
    }

    /** Go's `append(s, x)`: never nil afterwards. */
    function Append(x: T): (r: Slice<T>)
      ensures r.Slice? && r.Items() == Items() + [x]
    {
      Slice(Items() + [x])
    }
  }
}

=== FILE: client.dfy ===
/** The client side of the pipeline (log-client/internal/contracts.go): the
    write path that stores an entry off-chain and anchors its hash on the ledger,
    and the two read paths that join anchor records with stored entries.

    The Fabric gateway is described by what it reports: the peer environment in
    which the chaincode is endorsed, whether the endorsed transaction is
    dispatched, and the commit status. Evaluate results are described by what
    decoding their JSON yields. */
module Client {
  import opened Base
  import Text
  import opened Entry
  import Ledger
  import StableSort
  import Seqs

  /** What `json.Unmarshal` makes of an evaluate result. */
  datatype Payload<T> = EmptyPayload | Decoded(value: T) | Undecodable

  /** The client's copy of a page (`rawPaginatedResult`). */
  datatype RawPage = RawPage(records: seq<Ledger.Asset>, fetchedRecordsCount: int, bookmark: string, hasNextPage: bool)

  /** Entries joined with the hashes their anchors carry, index by index. */
  datatype LogsRead = LogsRead(entries: seq<LogEntry>, hashes: seq<string>)

  datatype PageRead = PageRead(entries: seq<LogEntry>, hashes: seq<string>, bookmark: string, hasNextPage: bool)

  /** The store id a blob path designates on the read path: `uint(dbId)` where
      `dbId, _ := strconv.Atoi(blobPath)`. */
  function BlobId(blobPath: string): (id: nat)
    ensures id < Text.Two64 && (id - Text.AtoiValue(blobPath)) % Text.Two64 == 0
    ensures Text.AtoiValue(blobPath) >= 0 ==> id == Text.AtoiValue(blobPath)
  {
    Text.ToUint64(Text.AtoiValue(blobPath))
  }

  /** A blob path written by the write path leads back to the row it names. */
  lemma BlobIdOfDecimal(id: nat)
    requires id <= MaxRowId
    ensures BlobId(Text.Decimal(id)) == id
  {
    Text.AtoiDecimal(id);
  }

  /** One iteration of the join loop: load the row the blob path names; a failed load
      leaves the zero entry in place and is not reported. */
  function Resolve(st: Store, online: bool, blobPath: string): (e: LogEntry)
    ensures online && BlobId(blobPath) in st.rows ==> e == st.rows[BlobId(blobPath)]
    ensures !(online && BlobId(blobPath) in st.rows) ==> e == ZeroEntry
  {
    match LoadFromDB(st, online, BlobId(blobPath))
    case Ok(e) => e
    case Err(_) => ZeroEntry
  }

  /** The loop shared by both read paths: one entry and one hash per record, in record order. */
  function Join(st: Store, online: bool, records: seq<Ledger.Asset>): (r: LogsRead)
    ensures |r.entries| == |records| && |r.hashes| == |records|
    ensures forall i :: 0 <= i < |records| ==>
              r.hashes[i] == records[i].hash && r.entries[i] == Resolve(st, online, records[i].blobPath)
  {
    if |records| == 0 then LogsRead([], [])
    else
      var prev := Join(st, online, records[..|records| - 1]);
      var last := records[|records| - 1];
      LogsRead(prev.entries + [Resolve(st, online, last.blobPath)], prev.hashes + [last.hash])
  }

  /** `ReadLogs`: the anchors GetAllAssets returned, stably sorted by their Timestamp
      string, joined with the stored entries. An empty evaluate result is an empty
      answer, not an error. */
  function ReadLogs(st: Store, online: bool, evaluation: Result<Payload<seq<Ledger.Asset>>>): (r: Result<LogsRead>)
    ensures evaluation.Err? ==> r == Err(evaluation.error)
    ensures evaluation == Ok(EmptyPayload) ==> r == Ok(LogsRead([], []))
    ensures evaluation == Ok(Undecodable) ==> r == Err(MalformedPayload)
    ensures evaluation.Ok? && evaluation.value.Decoded? ==>
      var chain := evaluation.value.value;
      var sorted := StableSort.SortByTimestamp(chain);
      && r.Ok?
      && |r.value.entries| == |chain| && |r.value.hashes| == |chain|
      && (forall i :: 0 <= i < |chain| ==>
            r.value.hashes[i] == sorted[i].hash && r.value.entries[i] == Resolve(st, online, sorted[i].blobPath))
  {
    match evaluation
    case Err(e) => Err(e)
    case Ok(EmptyPayload) => Ok(LogsRead([], []))
    case Ok(Undecodable) => Err(MalformedPayload)
    case Ok(Decoded(chain)) =>
      var sorted := StableSort.SortByTimestamp(chain);
      Ok(Join(st, online, sorted))
  }

  /** `ReadLogsWithPagination`: the page's records joined with the stored entries, in the
      order the ledger returned them, with the bookmark and the next-page flag passed
      through unchanged. An empty evaluate result does not decode, so it is an error here. */
  function ReadLogsWithPagination(st: Store, online: bool, evaluation: Result<Payload<RawPage>>): (r: Result<PageRead>)
    ensures evaluation.Err? ==> r == Err(evaluation.error)
    ensures evaluation == Ok(EmptyPayload) || evaluation == Ok(Undecodable) ==> r == Err(MalformedPayload)
    ensures evaluation.Ok? && evaluation.value.Decoded? ==>
      var page := evaluation.value.value;
      && r.Ok?
      && r.value.bookmark == page.bookmark
      && r.value.hasNextPage == page.hasNextPage
      && |r.value.entries| == |page.records| && |r.value.hashes| == |page.records|
      && (forall i :: 0 <= i < |page.records| ==>
            r.value.hashes[i] == page.records[i].hash
            && r.value.entries[i] == Resolve(st, online, page.records[i].blobPath))
  {
    match evaluation
    case Err(e) => Err(e)
    case Ok(Decoded(page)) =>
      var j := Join(st, online, page.records);
      Ok(PageRead(j.entries, j.hashes, page.bookmark, page.hasNextPage))
    case Ok(_) => Err(MalformedPayload)
  }

  /** The client's decoding of the chaincode's page, field for field. */
  function ToRawPage(page: Ledger.PaginatedQueryResult): RawPage {
    RawPage(page.records.Items(), page.fetchedRecordsCount, page.bookmark, page.hasNextPage)
  }

  // ---------------------------------------------------------------------------
  // Write path.

  /** What `commit.Status()` reports. When no status can be obtained the client does
      not learn whether the transaction was applied; `applied` records what the ledger did. */
  datatype CommitReport =
    | StatusUnavailable(applied: bool)
    | Reported(successful: bool, transactionId: string, code: int)

  /** How the gateway handles one submission of CreateAsset. */
  datatype Gateway = Gateway(
    endorser: Ledger.TxEnv,  // the peer environment the chaincode is endorsed in
    dispatched: bool,        // whether the endorsed transaction reaches the orderer
    commit: CommitReport
  )

  /** The state of both stores after a write, the CreateAsset arguments that were
      submitted (if any) and what WriteLog returned. */
  datatype WriteOutcome = WriteOutcome(store: Store, ledger: Ledger.WorldState, submitted: Option<seq<string>>, result: Result<()>)

  /** `SubmitAsync("CreateAsset", args...)` followed by `commit.Status()`: the ledger
      changes only if the endorsed transaction is committed. */
  function Anchor(ws: Ledger.WorldState, gw: Gateway, blobPath: string, hash: string, source: string): (r: (Ledger.WorldState, Result<()>))
    ensures r.1.Ok? ==>
              Ledger.CreateAsset(ws, gw.endorser, blobPath, hash, source).Ok?
              && r.0 == Ledger.CreateAsset(ws, gw.endorser, blobPath, hash, source).value
    ensures r.1.Ok? ==>
              && gw.endorser.txStamp.Some?
              && var key := Ledger.AssetKey(gw.endorser.txStamp.value, gw.endorser.uuid);
              && key !in ws && key in r.0
              && r.0[key] == Ledger.Asset(blobPath, hash, key, source, gw.endorser.now)
    ensures r.0 != ws ==>
              Ledger.CreateAsset(ws, gw.endorser, blobPath, hash, source).Ok?
              && r.0 == Ledger.CreateAsset(ws, gw.endorser, blobPath, hash, source).value
    ensures Ledger.CreateAsset(ws, gw.endorser, blobPath, hash, source).Err? ==>
              r == (ws, Err(EndorsementFailed(Ledger.CreateAsset(ws, gw.endorser, blobPath, hash, source).error)))
    ensures Ledger.CreateAsset(ws, gw.endorser, blobPath, hash, source).Ok? && gw.dispatched && gw.commit.Reported? ==>
              (r.1.Ok? <==> gw.commit.successful)
    ensures gw.commit.Reported? && !gw.commit.successful ==> r.0 == ws && r.1.Err?
    ensures Ledger.CreateAsset(ws, gw.endorser, blobPath, hash, source).Ok? && gw.dispatched
            && gw.commit.Reported? && !gw.commit.successful ==>
              r == (ws, Err(CommitRejected(gw.commit.transactionId, gw.commit.code)))
    ensures Ledger.CreateAsset(ws, gw.endorser, blobPath, hash, source).Ok? && !gw.dispatched ==>
              r == (ws, Err(SubmitFailed))
    ensures Ledger.CreateAsset(ws, gw.endorser, blobPath, hash, source).Ok? && gw.dispatched
            && gw.commit.StatusUnavailable? ==>
              r.1 == Err(CommitStatusFailed)
  {
    match Ledger.CreateAsset(ws, gw.endorser, blobPath, hash, source)
    case Err(e) => (ws, Err(EndorsementFailed(e)))
    case Ok(proposed) =>
      if !gw.dispatched then (ws, Err(SubmitFailed))
      else match gw.commit
        case StatusUnavailable(applied) => (if applied then proposed else ws, Err(CommitStatusFailed))
        case Reported(successful, txId, code) =>
          if successful then (proposed, Ok(())) else (ws, Err(CommitRejected(txId, code)))
  }

  /** The entry WriteLog builds before storing it: trimmed content, the current time,
      the client id as source and no id yet. */
  function NewEntry(content: string, now: Time, clientId: string): (e: LogEntry)
    ensures e.id == 0 && e.timestamp == now && e.source == clientId
    ensures |e.content| > 0 ==> !Text.IsSpace(e.content[0]) && !Text.IsSpace(e.content[|e.content| - 1])
    ensures exists k :: Seqs.OccursAt(content, e.content, k) && Text.AllSpace(content[..k]) && Text.AllSpace(content[k + |e.content|..])
  {
    LogEntry(0, Text.TrimSpace(content), now, clientId)
  }

  /** The steps of WriteLog after the entry is built: store it (which assigns the id),
      hash the stored entry, submit CreateAsset(decimal id, hash, client id), and check
      the commit. A failed store write submits nothing; a failed anchoring leaves the
      stored row in place. */
  function StoreAndAnchor(p: Primitives, st: Store, online: bool, ws: Ledger.WorldState, gw: Gateway,
                          entry: LogEntry, clientId: string): (o: WriteOutcome)
    ensures var w := WriteToDB(st, online, entry);
      && (w.Err? ==> o == WriteOutcome(st, ws, None, Err(w.error)))
      && (w.Ok? ==>
            var e := w.value.entry;
            && o.store == w.value.store
            && o.submitted == Some([Text.Decimal(e.id), Hash(p, e), clientId])
            && (o.ledger, o.result) == Anchor(ws, gw, Text.Decimal(e.id), Hash(p, e), clientId))
    ensures o.submitted.None? ==> o.ledger == ws && o.result.Err?
  {
    match WriteToDB(st, online, entry)
    case Err(e) => WriteOutcome(st, ws, None, Err(e))
    case Ok(w) =>
      var blobPath := Text.Decimal(w.entry.id);
      var hash := Hash(p, w.entry);
      var anchored := Anchor(ws, gw, blobPath, hash, clientId);
      WriteOutcome(w.store, anchored.0, Some([blobPath, hash, clientId]), anchored.1)
  }

  /** `WriteLog`: the trimmed content, the current time and the client id as source are
      stored and anchored; the stored entry is the one whose hash is submitted. */
  function WriteLog(p: Primitives, st: Store, online: bool, ws: Ledger.WorldState, gw: Gateway,
                    now: Time, content: string, clientId: string): (o: WriteOutcome)
    ensures var w := WriteToDB(st, online, NewEntry(content, now, clientId));
      && (w.Err? ==> o == WriteOutcome(st, ws, None, Err(w.error)))
      && (w.Ok? ==>
            var e := w.value.entry;
            && e.content == Text.TrimSpace(content) && e.source == clientId && e.timestamp == now
            && o.store == w.value.store
            && o.submitted == Some([Text.Decimal(e.id), Hash(p, e), clientId])
            && (o.ledger, o.result) == Anchor(ws, gw, Text.Decimal(e.id), Hash(p, e), clientId))
  {
    StoreAndAnchor(p, st, online, ws, gw, NewEntry(content, now, clientId), clientId)
  }
}

=== FILE: dashboard.dfy ===
/** The dashboard's log table filter (log-dashboard/src/components/logs.tsx): which
    rows are shown for the four filter inputs, how the verification select maps to a
    filter value, and what clearing the filters does. */
module Dashboard {
  import opened Base
  import Seqs

  /** A row of the table. */
  datatype Log = Log(timestamp: string, content: string, isVerified: bool, clientName: string)

  /** The filter inputs: content search, verification state (`null` for all),
      client-name search and date prefix. */
  datatype Filters = Filters(content: string, verified: Option<bool>, clientName: string, date: string)

  /** The rows the table is built from. */
  const SampleLogs: seq<Log> := [
    Log("2023-10-01T10:00:00Z", "User logged in", true, "Client A"),
    Log("2023-10-02T11:00:00Z", "Error occurred", false, "Client B"),
    Log("2023-10-03T12:00:00Z", "Data updated", true, "Client A")
  ]

  predicate IsUpper(c: char) { 'A' <= c <= 'Z' }

  function LowerChar(c: char): (r: char)
    ensures !IsUpper(r)
    ensures IsUpper(c) ==> r as int == c as int + 32
    ensures !IsUpper(c) ==> r == c
  {
    if IsUpper(c) then (c as int + 32) as char else c
  }

  /** `toLowerCase`, on the ASCII letters. */
  function ToLower(s: string): (r: string)
    ensures |r| == |s| && forall i :: 0 <= i < |s| ==> r[i] == LowerChar(s[i])
  {
    seq(|s|, i requires 0 <= i < |s| => LowerChar(s[i]))
  }

  lemma ToLowerIdempotent(s: string)
    ensures ToLower(ToLower(s)) == ToLower(s)
  {
  }

  lemma ToLowerConcat(a: string, b: string)
    ensures ToLower(a + b) == ToLower(a) + ToLower(b)
  {
  }

  lemma OccursShift(s: string, t: string, k: int)
    requires |s| > 0 && k >= 1
    ensures Seqs.OccursAt(s, t, k) <==> Seqs.OccursAt(s[1..], t, k - 1)
  {
    if k + |t| <= |s| {
      assert s[k..k + |t|] == s[1..][k - 1..k - 1 + |t|];
    }
  }

  /** `String.prototype.includes`: whether `t` occurs in `s` at some position; the empty
      string occurs everywhere. */
  function Includes(s: string, t: string): (b: bool)
    ensures b <==> exists k :: Seqs.OccursAt(s, t, k)
    decreases |s|
  {
    if |t| > |s| then
      assert forall k :: !Seqs.OccursAt(s, t, k);
      false
    else if s[..|t|] == t then
      assert Seqs.OccursAt(s, t, 0);
      true
    else
      var r := Includes(s[1..], t);
      assert r ==> exists k :: Seqs.OccursAt(s, t, k) by {
        if r {
          var k :| Seqs.OccursAt(s[1..], t, k);
          OccursShift(s, t, k + 1);
        }
      }
      assert (exists k :: Seqs.OccursAt(s, t, k)) ==> r by {
        if exists k :: Seqs.OccursAt(s, t, k) {
          var k :| Seqs.OccursAt(s, t, k);
          assert k != 0;
          OccursShift(s, t, k);
        }
      }
      r
  }

  /** A longer search text matches fewer strings. */
  lemma IncludesPrefix(s: string, t: string, u: string)
    requires Includes(s, t + u)
    ensures Includes(s, t)
  {
    var k :| Seqs.OccursAt(s, t + u, k);
    assert s[k..k + |t|] == (t + u)[..|t|];
    assert Seqs.OccursAt(s, t, k);
  }

  /** `startsWith`. */
  predicate StartsWith(s: string, prefix: string) {
    Seqs.OccursAt(s, prefix, 0)
  }

  /** The callback given to `filter`: all four conditions hold. */
  predicate Shown(f: Filters, log: Log)
    ensures Shown(f, log) <==>
      && (exists k :: Seqs.OccursAt(ToLower(log.content), ToLower(f.content), k))
      && (f.verified.None? || log.isVerified == f.verified.value)
      && (exists k :: Seqs.OccursAt(ToLower(log.clientName), ToLower(f.clientName), k))
      && (f.date == "" || (|f.date| <= |log.timestamp| && log.timestamp[..|f.date|] == f.date))
  {
    && Includes(ToLower(log.content), ToLower(f.content))
    && (f.verified.None? || log.isVerified == f.verified.value)
    && Includes(ToLower(log.clientName), ToLower(f.clientName))
    && (f.date == "" || StartsWith(log.timestamp, f.date))
  }

  function Matcher(f: Filters): Log -> bool {
    (log: Log) => Shown(f, log)
  }

  /** `filteredLogs`: exactly the rows the filters admit, in table order. */
  function FilteredLogs(logs: seq<Log>, f: Filters): (r: seq<Log>)
    ensures Seqs.SelectsExactly(r, logs, Seqs.FilterIndices(logs, Matcher(f)), Matcher(f))
  {
    Seqs.FilterSelectsExactly(logs, Matcher(f));
    Seqs.Filter(logs, Matcher(f))
  }

  /** `clearFilters`: the filter state after clearing admits every row. */
  function ClearFilters(): (f: Filters)
    ensures forall log :: Shown(f, log)
  {
    var f := Filters("", None, "", "");
    assert forall s: string :: Seqs.OccursAt(s, "", 0);
    f
  }

  /** After clearing, the table shows all rows. */
  lemma ClearedShowsAll(logs: seq<Log>)
    ensures FilteredLogs(logs, ClearFilters()) == logs
  {
    Seqs.FilterKeepsAll(logs, Matcher(ClearFilters()));
  }

  /** The text searches ignore the case of both the row and the search text. */
  lemma SearchIgnoresCase(logs: seq<Log>, f: Filters)
    ensures FilteredLogs(logs, f.(content := ToLower(f.content), clientName := ToLower(f.clientName)))
         == FilteredLogs(logs, f)
  {
    ToLowerIdempotent(f.content);
    ToLowerIdempotent(f.clientName);
    var g := f.(content := ToLower(f.content), clientName := ToLower(f.clientName));
    Seqs.FilterAgree(logs, Matcher(g), Matcher(f));
  }

  /** Typing more of a content search never brings rows back. */
  lemma LongerSearchNarrows(f: Filters, more: string, log: Log)
    requires Shown(f.(content := f.content + more), log)
    ensures Shown(f, log)
  {
    ToLowerConcat(f.content, more);
    IncludesPrefix(ToLower(log.content), ToLower(f.content), ToLower(more));
  }

  /** The verification select's handler: the empty value means all, any other value
      means verified exactly when it is "true". */
  function VerifiedChoice(value: string): (r: Option<bool>)
    ensures r.None? <==> value == ""
    ensures r.Some? ==> (r.value <==> value == "true")
  {
    if value == "" then None else Some(value == "true")
  }

  /** The value the select displays for a filter state. */
  function VerifiedValue(v: Option<bool>): string {
    match v
    case None => ""
    case Some(b) => if b then "true" else "false"
  }

  /** Choosing the value the select displays reproduces the filter state. */
  lemma VerifiedChoiceRoundTrip(v: Option<bool>)
    ensures VerifiedChoice(VerifiedValue(v)) == v
  {
  }

  lemma ClientNames()
    ensures ToLower("Client A") == "client a" && ToLower("client a") == "client a"
    ensures ToLower("Client B") == "client b"
    ensures Includes("client a", "client a") && !Includes("client b", "client a")
  {
    assert ToLower("Client A") == "client a";
    assert ToLower("client a") == "client a";
    assert ToLower("Client B") == "client b";
    assert !Includes("client b", "client a") by {
      assert "client b"[..8] == "client b";
      assert "client b"[7] != "client a"[7];
      assert !Includes("client b"[1..], "client a");
    }
    assert Includes("client a", "client a") by {
      assert "client a"[..8] == "client a";
    }
  }

  /** An empty search text matches every row. */
  lemma EmptySearchMatches(s: string)
    ensures Includes(ToLower(s), ToLower(""))
  {
    assert Seqs.OccursAt(ToLower(s), ToLower(""), 0);
  }

  lemma SampleRowsShown(f: Filters)
    requires f == Filters("", Some(true), "client a", "")
    ensures Shown(f, SampleLogs[0]) && !Shown(f, SampleLogs[1]) && Shown(f, SampleLogs[2])
  {
    ClientNames();
    EmptySearchMatches(SampleLogs[0].content);
    EmptySearchMatches(SampleLogs[2].content);
  }

  /** Filtering the sample rows for verified entries of "client a" keeps the first and
      the third row. */
  lemma SampleFilter()
    ensures FilteredLogs(SampleLogs, Filters("", Some(true), "client a", ""))
         == [SampleLogs[0], SampleLogs[2]]
  {
    var f := Filters("", Some(true), "client a", "");
    SampleRowsShown(f);
    var s := SampleLogs;
    assert s[..2][..1] == [s[0]];
    assert s[..1] == [s[0]];
    assert [s[0]][..0] == [];
    assert Seqs.Filter(s[..1], Matcher(f)) == [s[0]];
    assert Seqs.Filter(s[..2], Matcher(f)) == [s[0]];
  }
}

=== FILE: entry.dfy ===
/** The off-chain log entry (log-client/internal/log-entry.go): its
    canonical string and hash, the key-value view of the relational store that
    holds it, and the re-verification of a stored entry against a ledger hash.

    SHA-256 and RFC 3339 formatting with nanoseconds are foreign library code.
    They are supplied as a `Primitives` value: any SHA-256 (a total function to
    32-byte digests, applied to the UTF-8 encoding of its argument) and any
    formatter. Everything proved here holds for every such choice. */
module Entry {
  import opened Base
  import Text
  import Hex

  /** A Go `time.Time`: an instant (nanoseconds since the Unix epoch) and the
      offset of the zone it is expressed in. */
  datatype Time = Time(unixNanos: int, zoneOffsetSeconds: int)

  /** `t.UTC()`: the same instant, expressed in UTC. */
  function UTC(t: Time): Time {
    Time(t.unixNanos, 0)
  }

  /** Go's zero `time.Time`, January 1 of year 1, 00:00:00 UTC. */
  const ZeroTime: Time := Time(-62135596800 * 1_000_000_000, 0)

  /** A SHA-256 digest. */
  type Digest = d: seq<byte> | |d| == 32 witness seq(32, _ => 0 as byte)

  /** The foreign functions the hash is built from. */
  datatype Primitives = Primitives(
    sha256: string -> Digest,      // SHA-256 of the UTF-8 bytes of its argument
    rfc3339Nano: Time -> string    // `Format(time.RFC3339Nano)`
  )

  /** A row of the off-chain store; `id` is the store-assigned primary key (a Go `uint`). */
  datatype LogEntry = LogEntry(id: nat, content: string, timestamp: Time, source: string)

  /** The zero value of LogEntry, which is what a failed load leaves behind. */
  const ZeroEntry: LogEntry := LogEntry(0, "", ZeroTime, "")

  /** The read-side view of an entry with the verdict of its re-verification. */
  datatype DetailedLogEntry = DetailedLogEntry(id: nat, content: string, timestamp: Time, isValid: bool, source: string)

  /** The dynamic value of one exported struct field, as reflection sees it. */
  datatype FieldValue = UintField(n: nat) | StringField(s: string) | TimeField(t: Time)

  /** The exported fields of LogEntry, in declaration order. */
  function ExportedFields(e: LogEntry): seq<FieldValue> {
    [UintField(e.id), StringField(e.content), TimeField(e.timestamp), StringField(e.source)]
  }

  /** One field's contribution to the hashed string: times as RFC3339Nano in UTC,
      every other value as `fmt.Sprintf("%v", ...)` renders it. */
  function Render(p: Primitives, f: FieldValue): string {
    match f
    case UintField(n) => Text.Decimal(n)
    case StringField(s) => s
    case TimeField(t) => p.rfc3339Nano(UTC(t))
  }

  function RenderAll(p: Primitives, fs: seq<FieldValue>): string {
    if |fs| == 0 then [] else Render(p, fs[0]) + RenderAll(p, fs[1..])
  }

  /** The string `Hash` digests: every exported field rendered, concatenated with no
      separator, which comes to the decimal id, the content, the UTC timestamp and the
      source, in that order and with nothing between them. */
  function Canonical(p: Primitives, e: LogEntry): (s: string)
    ensures s == Text.Decimal(e.id) + e.content + p.rfc3339Nano(UTC(e.timestamp)) + e.source
  {
    var fs := ExportedFields(e);
    assert fs[1..][1..][1..][1..] == [];
    assert RenderAll(p, fs[1..][1..][1..]) == e.source;
    assert RenderAll(p, fs[1..][1..]) == p.rfc3339Nano(UTC(e.timestamp)) + e.source;
    assert RenderAll(p, fs[1..]) == e.content + p.rfc3339Nano(UTC(e.timestamp)) + e.source;
    RenderAll(p, fs)
  }

  /** `LogEntry.Hash`: lower-case hex of the SHA-256 of the canonical string.
      It cannot fail (the Go error result is always nil) and always has 64 hex digits. */
  function Hash(p: Primitives, e: LogEntry): (h: string)
    ensures |h| == 64
    ensures forall i :: 0 <= i < |h| ==> Hex.IsLowerHex(h[i])
  {
    Hex.Encode(p.sha256(Canonical(p, e)))
  }

  /** The hex string carries the whole digest of the canonical string. */
  lemma HashDecodesToDigest(p: Primitives, e: LogEntry)
    ensures Hex.Decode(Hash(p, e)) == Some(p.sha256(Canonical(p, e)))
  {
    Hex.DecodeEncode(p.sha256(Canonical(p, e)));
  }

  /** Two entries get the same hash exactly when their canonical strings have the same SHA-256. */
  lemma HashEqualIffDigestEqual(p: Primitives, e1: LogEntry, e2: LogEntry)
    ensures Hash(p, e1) == Hash(p, e2) <==> p.sha256(Canonical(p, e1)) == p.sha256(Canonical(p, e2))
  {
    if Hash(p, e1) == Hash(p, e2) {
      Hex.EncodeInjective(p.sha256(Canonical(p, e1)), p.sha256(Canonical(p, e2)));
    }
  }

  /** The hash depends on the instant only, not on the zone the timestamp is expressed in. */
  lemma HashIgnoresZone(p: Primitives, e: LogEntry, offset: int)
    ensures Hash(p, e.(timestamp := Time(e.timestamp.unixNanos, offset))) == Hash(p, e)
  {
  }

  /** Without separators the id and the content can trade digits: entry 1 with
      content "2x" and entry 12 with content "x" hash alike. */
  lemma IdContentCollision(p: Primitives, t: Time, source: string)
    ensures LogEntry(1, "2x", t, source) != LogEntry(12, "x", t, source)
    ensures Hash(p, LogEntry(1, "2x", t, source)) == Hash(p, LogEntry(12, "x", t, source))
  {
    var e1 := LogEntry(1, "2x", t, source);
    var e2 := LogEntry(12, "x", t, source);
    DecimalOneTwelve();
    assert Text.Decimal(1) + "2x" == Text.Decimal(12) + "x";
    assert Canonical(p, e1) == Canonical(p, e2);
  }

  lemma DecimalOneTwelve()
    ensures Text.Decimal(1) == "1" && Text.Decimal(12) == "12"
  {
    assert Text.DigitChar(1) == '1' && Text.DigitChar(2) == '2';
    assert Text.Decimal(12) == Text.Decimal(1) + [Text.DigitChar(2)];
  }

  /** For the same id, moving the rendered timestamps between content and source
      yields a different entry with the same hash: changing content, timestamp and
      source of a row together can leave its hash intact. */
  lemma FieldShiftCollision(p: Primitives, id: nat, t1: Time, t2: Time)
    requires t1 != t2
    ensures var e1 := LogEntry(id, "", t1, p.rfc3339Nano(UTC(t2)));
            var e2 := LogEntry(id, p.rfc3339Nano(UTC(t1)), t2, "");
            e1 != e2 && Hash(p, e1) == Hash(p, e2)
  {
    var e1 := LogEntry(id, "", t1, p.rfc3339Nano(UTC(t2)));
    var e2 := LogEntry(id, p.rfc3339Nano(UTC(t1)), t2, "");
    assert Canonical(p, e1) == Canonical(p, e2);
  }

  // ---------------------------------------------------------------------------
  // The off-chain store, as the key-value view `LoadFromDB` and `WriteToDB` use.

  /** The largest id the store's auto-increment key can take (a signed 64-bit `bigserial`). */
  const MaxRowId: nat := Text.MaxInt64

  /** The rows, keyed by id, and the next value of the id sequence. */
  datatype Store = Store(rows: map<nat, LogEntry>, nextId: nat)

  const EmptyStore: Store := Store(map[], 1)

  /** Every row is filed under its own positive id. */
  ghost predicate Valid(st: Store) {
    forall k :: k in st.rows ==> st.rows[k].id == k && 0 < k <= MaxRowId
  }

  /** `LoadFromDB(id)`: the row under `id`, `StoreUnavailable` when the database cannot be
      reached and `NotFound` when there is no such row. */
  function LoadFromDB(st: Store, online: bool, id: nat): (r: Result<LogEntry>)
    ensures r.Ok? <==> online && id in st.rows
    ensures r.Ok? ==> r.value == st.rows[id]
    ensures r.Err? ==> r.error == (if online then NotFound else StoreUnavailable)
  {
    if !online then Err(StoreUnavailable)
    else if id !in st.rows then Err(NotFound)
    else Ok(st.rows[id])
  }

  /** A successful insert: the new store and the entry with its id filled in. */
  datatype Written = Written(store: Store, entry: LogEntry)

  /** `WriteToDB`: inserts the entry. A zero id is replaced by the next value of the
      id sequence; a non-zero id is inserted as given. The insert fails when the store is
      unreachable, when the id is taken, when it does not fit the key column, or when
      the content or source holds U+0000, which a PostgreSQL text column rejects. */
  function WriteToDB(st: Store, online: bool, e: LogEntry): (r: Result<Written>)
    ensures !online ==> r == Err(StoreUnavailable)
    ensures r.Ok? ==>
      var w := r.value;
      && w.entry == e.(id := w.entry.id)
      && (e.id != 0 ==> w.entry.id == e.id)
      && 0 < w.entry.id <= MaxRowId
      && w.entry.id !in st.rows
      && w.store.rows.Keys == st.rows.Keys + {w.entry.id}
      && w.store.rows[w.entry.id] == w.entry
      && (forall k :: k in st.rows ==> w.store.rows[k] == st.rows[k])
    ensures Valid(st) && r.Ok? ==> Valid(r.value.store)
    ensures r.Ok? ==> '\0' !in e.content && '\0' !in e.source
    ensures && online && '\0' !in e.content && '\0' !in e.source
            && (var id := if e.id == 0 then st.nextId else e.id; 0 < id <= MaxRowId && id !in st.rows)
            ==> r.Ok?
    ensures r.Ok? && e.id == 0 ==> r.value.entry.id == st.nextId && r.value.store.nextId == st.nextId + 1
    ensures r.Ok? && e.id != 0 ==> r.value.store.nextId == st.nextId
  {
    if !online then Err(StoreUnavailable)
    else
      var id := if e.id == 0 then st.nextId else e.id;
      if id == 0 || id > MaxRowId || id in st.rows || '\0' in e.content || '\0' in e.source then Err(WriteFailed)
      else
        var stored := e.(id := id);
        var next := if e.id == 0 then st.nextId + 1 else st.nextId;
        Ok(Written(Store(st.rows[id := stored], next), stored))
  }

  /** The outcome of re-verification: the entry as reloaded, and whether its hash matched. */
  datatype Validation = Validation(reloaded: LogEntry, isValid: bool)

  /** `ValidateHash`: reloads the entry stored under `l.id` (replacing the in-memory
      copy) and compares its hash with `hash`; a failed load is reported as the error. */
  function ValidateHash(p: Primitives, st: Store, online: bool, l: LogEntry, hash: string): (r: Result<Validation>)
    ensures r.Ok? <==> online && l.id in st.rows
    ensures r.Ok? ==> r.value.reloaded == st.rows[l.id]
    ensures r.Ok? ==> (r.value.isValid <==> Hash(p, st.rows[l.id]) == hash)
    ensures r.Err? ==> r.error == (if online then NotFound else StoreUnavailable)
  {
    match LoadFromDB(st, online, l.id)
    case Err(e) => Err(e)
    case Ok(stored) => Ok(Validation(stored, Hash(p, stored) == hash))
  }

  /** Only the id of the in-memory entry matters: its other fields are overwritten by the reload. */
  lemma ValidationIgnoresInMemoryFields(p: Primitives, st: Store, online: bool, l1: LogEntry, l2: LogEntry, hash: string)
    requires l1.id == l2.id
    ensures ValidateHash(p, st, online, l1, hash) == ValidateHash(p, st, online, l2, hash)
  {
  }

  /** `GetDetailedLogEntry`: the reloaded entry's fields with the re-verification verdict,
      or the load error. */
  function GetDetailedLogEntry(p: Primitives, st: Store, online: bool, l: LogEntry, hash: string): (r: Result<DetailedLogEntry>)
    ensures r.Ok? <==> online && l.id in st.rows
    ensures r.Ok? ==>
      var s := st.rows[l.id];
      && r.value.id == s.id && r.value.content == s.content
      && r.value.timestamp == s.timestamp && r.value.source == s.source
      && (r.value.isValid <==> Hash(p, s) == hash)
    ensures r.Err? ==> r.error == (if online then NotFound else StoreUnavailable)
  {
    match ValidateHash(p, st, online, l, hash)
    case Err(e) => Err(e)
    case Ok(v) => Ok(DetailedLogEntry(v.reloaded.id, v.reloaded.content, v.reloaded.timestamp, v.isValid, v.reloaded.source))
  }
}

=== FILE: hex.dfy ===
/** Lower-case hexadecimal encoding of bytes, as Go's `hex.EncodeToString`
    does it (high nibble first, alphabet "0123456789abcdef"), with a decoder
    that undoes it. */
module Hex {
  import opened Base

  const Alphabet: string := "0123456789abcdef"

  predicate IsLowerHex(c: char) {
    ('0' <= c <= '9') || ('a' <= c <= 'f')
  }

  function NibbleChar(v: int): (c: char)
    requires 0 <= v < 16
    ensures IsLowerHex(c)
  {
    Alphabet[v]
  }

  function NibbleValue(c: char): Option<int>
  {
    if '0' <= c <= '9' then Some(c as int - '0' as int)
    else if 'a' <= c <= 'f' then Some(c as int - 'a' as int + 10)
    else None
  }

  /** Two lower-case hex digits per byte. */
  function Encode(d: seq<byte>): (r: string)
    ensures |r| == 2 * |d|
    ensures forall i :: 0 <= i < |r| ==> IsLowerHex(r[i])
  {
    if |d| == 0 then []
    else [NibbleChar(d[0] as int / 16), NibbleChar(d[0] as int % 16)] + Encode(d[1..])
  }

  function Decode(s: string): Option<seq<byte>>
    decreases |s|
  {
    if |s| == 0 then Some([])
    else if |s| == 1 then None
    else
      match (NibbleValue(s[0]), NibbleValue(s[1]), Decode(s[2..]))
      case (Some(hi), Some(lo), Some(rest)) => Some([(hi * 16 + lo) as byte] + rest)
      case _ => None
  }

  lemma NibbleRoundTrip(v: int)
    requires 0 <= v < 16
    ensures NibbleValue(NibbleChar(v)) == Some(v)
  {
  }

  /** Decoding an encoding gives back the bytes: hex encoding loses nothing. */
  lemma {:induction false} DecodeEncode(d: seq<byte>)
    ensures Decode(Encode(d)) == Some(d)
  {
    if |d| > 0 {
      var hi := d[0] as int / 16;
      var lo := d[0] as int % 16;
      NibbleRoundTrip(hi);
      NibbleRoundTrip(lo);
      var e := Encode(d);
      assert e[2..] == Encode(d[1..]);
      DecodeEncode(d[1..]);
      assert [(hi * 16 + lo) as byte] + d[1..] == d;
    }
  }

  /** Consequently equal encodings mean equal bytes. */
  lemma EncodeInjective(a: seq<byte>, b: seq<byte>)
    requires Encode(a) == Encode(b)
    ensures a == b
  {
    DecodeEncode(a);
    DecodeEncode(b);
  }
}

=== FILE: integrity.dfy ===
/** The end-to-end integrity guarantees of the pipeline: what a record on the ledger
    promises about the off-chain store, how WriteLog keeps that promise, and what the
    read paths report when it holds, when a stored row is altered, and where the
    canonical string lets an alteration go unnoticed. */
module Integrity {
  import opened Base
  import Text
  import opened Entry
  import Ledger
  import StableSort
  import Client
  import Seqs

  /** A record is anchored when its blob path names a stored row whose hash it carries. */
  ghost predicate Anchored(p: Primitives, st: Store, a: Ledger.Asset) {
    Client.BlobId(a.blobPath) in st.rows && a.hash == Hash(p, st.rows[Client.BlobId(a.blobPath)])
  }

  /** Every record on the ledger is anchored in the store. */
  ghost predicate Consistent(p: Primitives, st: Store, ws: Ledger.WorldState) {
    forall k :: k in ws ==> Anchored(p, st, ws[k])
  }

  /** What the dashboard shows as verified: the reload succeeds and the hashes match. */
  predicate Verified(p: Primitives, st: Store, e: LogEntry, hash: string) {
    var d := GetDetailedLogEntry(p, st, true, e, hash);
    d.Ok? && d.value.isValid
  }

  /** Reading a record back verifies exactly when the record is anchored. */
  lemma VerifiedIffAnchored(p: Primitives, st: Store, a: Ledger.Asset)
    requires Valid(st)
    ensures Verified(p, st, Client.Resolve(st, true, a.blobPath), a.hash) <==> Anchored(p, st, a)
  {
    var id := Client.BlobId(a.blobPath);
    if id !in st.rows {
      assert 0 !in st.rows;
    }
  }

  /** Rows are never rewritten, so adding rows keeps every record anchored. */
  lemma StoreGrowthKeepsConsistency(p: Primitives, st: Store, st': Store, ws: Ledger.WorldState)
    requires Consistent(p, st, ws)
    requires forall k :: k in st.rows ==> k in st'.rows && st'.rows[k] == st.rows[k]
    ensures Consistent(p, st', ws)
  {
    forall k | k in ws
      ensures Anchored(p, st', ws[k])
    {
      assert Anchored(p, st, ws[k]);
    }
  }

  /** A record created for a stored row, with that row's decimal id and hash, is anchored. */
  lemma CreatedRecordAnchored(p: Primitives, st: Store, ws: Ledger.WorldState, env: Ledger.TxEnv,
                              e: LogEntry, source: string)
    requires Consistent(p, st, ws)
    requires e.id in st.rows && st.rows[e.id] == e && e.id <= MaxRowId
    requires Ledger.CreateAsset(ws, env, Text.Decimal(e.id), Hash(p, e), source).Ok?
    ensures Consistent(p, st, Ledger.CreateAsset(ws, env, Text.Decimal(e.id), Hash(p, e), source).value)
  {
    var ws' := Ledger.CreateAsset(ws, env, Text.Decimal(e.id), Hash(p, e), source).value;
    Client.BlobIdOfDecimal(e.id);
    forall k | k in ws'
      ensures Anchored(p, st, ws'[k])
    {
      if k in ws {
        assert Anchored(p, st, ws[k]);
      }
    }
  }

  /** Storing and anchoring any entry: a failed store write changes nothing; otherwise every earlier record stays anchored
      (rows are never rewritten) and a committed record names the row just written. */
  lemma StoreAndAnchorPreservesConsistency(p: Primitives, st: Store, online: bool, ws: Ledger.WorldState,
                                     gw: Client.Gateway, entry: LogEntry, clientId: string)
    requires Valid(st) && Consistent(p, st, ws)
    ensures var o := Client.StoreAndAnchor(p, st, online, ws, gw, entry, clientId);
            Valid(o.store) && Consistent(p, o.store, o.ledger)
  {
    var o := Client.StoreAndAnchor(p, st, online, ws, gw, entry, clientId);
    var w := WriteToDB(st, online, entry);
    if w.Ok? {
      var e := w.value.entry;
      var st' := w.value.store;
      StoreGrowthKeepsConsistency(p, st, st', ws);
      if o.ledger != ws {
        CreatedRecordAnchored(p, st', ws, gw.endorser, e, clientId);
      }
    }
  }

  /** A write that reports success has put a new record on the ledger carrying the
      submitted blob path and hash and the client id as source. */
  lemma AnchorsSubmitted(p: Primitives, st: Store, online: bool, ws: Ledger.WorldState,
                                 gw: Client.Gateway, entry: LogEntry, clientId: string)
    ensures var o := Client.StoreAndAnchor(p, st, online, ws, gw, entry, clientId);
      o.result.Ok? ==>
        && o.submitted.Some? && |o.submitted.value| == 3
        && gw.endorser.txStamp.Some?
        && var key := Ledger.AssetKey(gw.endorser.txStamp.value, gw.endorser.uuid);
        && key !in ws && key in o.ledger
        && o.ledger[key] == Ledger.Asset(o.submitted.value[0], o.submitted.value[1], key, clientId, gw.endorser.now)
  {
  }

  /** The record a successful write commits verifies against the row it stored. */
  lemma AnchorsStoredEntry(p: Primitives, st: Store, online: bool, ws: Ledger.WorldState,
                                   gw: Client.Gateway, entry: LogEntry, clientId: string)
    requires Valid(st)
    ensures var o := Client.StoreAndAnchor(p, st, online, ws, gw, entry, clientId);
      o.result.Ok? ==>
        && o.submitted.Some? && |o.submitted.value| == 3
        && Verified(p, o.store, Client.Resolve(o.store, true, o.submitted.value[0]), o.submitted.value[1])
  {
    var o := Client.StoreAndAnchor(p, st, online, ws, gw, entry, clientId);
    var w := WriteToDB(st, online, entry);
    if w.Ok? {
      var e := w.value.entry;
      var a := Ledger.Asset(Text.Decimal(e.id), Hash(p, e), "", clientId, "");
      Client.BlobIdOfDecimal(e.id);
      assert Anchored(p, w.value.store, a);
      VerifiedIffAnchored(p, w.value.store, a);
    }
  }

  /** When the entry was stored but the ledger is unchanged, the write reports failure. */
  lemma UnanchoredWriteFails(p: Primitives, st: Store, online: bool, ws: Ledger.WorldState,
                             gw: Client.Gateway, entry: LogEntry, clientId: string)
    ensures var o := Client.StoreAndAnchor(p, st, online, ws, gw, entry, clientId);
            o.submitted.Some? && o.ledger == ws ==> o.result.Err?
  {
    var o := Client.StoreAndAnchor(p, st, online, ws, gw, entry, clientId);
    if o.result.Ok? {
      var key := Ledger.AssetKey(gw.endorser.txStamp.value, gw.endorser.uuid);
      assert key in o.ledger && key !in ws;
    }
  }

  /** When the ledger is left as it was although the entry was stored (rejected commit,
      failed submission or endorsement), the new row is an orphan: no record names it. */
  lemma OrphanRow(p: Primitives, st: Store, online: bool, ws: Ledger.WorldState,
                       gw: Client.Gateway, entry: LogEntry, clientId: string)
    requires Valid(st) && Consistent(p, st, ws)
    ensures var o := Client.StoreAndAnchor(p, st, online, ws, gw, entry, clientId);
      o.submitted.Some? && o.ledger == ws ==>
        var id := Client.BlobId(o.submitted.value[0]);
        && id in o.store.rows && id !in st.rows
        && forall k :: k in o.ledger ==> Client.BlobId(o.ledger[k].blobPath) != id
  {
    var o := Client.StoreAndAnchor(p, st, online, ws, gw, entry, clientId);
    var w := WriteToDB(st, online, entry);
    if w.Ok? {
      var id := w.value.entry.id;
      Client.BlobIdOfDecimal(id);
      NoRecordNames(p, st, ws, id);
    }
  }

  /** On a consistent ledger no record names a row the store does not hold. */
  lemma NoRecordNames(p: Primitives, st: Store, ws: Ledger.WorldState, id: nat)
    requires Consistent(p, st, ws) && id !in st.rows
    ensures forall k :: k in ws ==> Client.BlobId(ws[k].blobPath) != id
  {
    forall k | k in ws
      ensures Client.BlobId(ws[k].blobPath) != id
    {
      assert Anchored(p, st, ws[k]);
    }
  }

  /** A commit the ledger reports unsuccessful leaves the ledger unchanged; when the entry
      was stored and endorsed and the transaction dispatched, the error names the
      transaction and the status code. */
  lemma RejectedCommitLeavesLedger(p: Primitives, st: Store, online: bool, ws: Ledger.WorldState,
                                   gw: Client.Gateway, entry: LogEntry, clientId: string)
    requires gw.commit.Reported? && !gw.commit.successful
    ensures var o := Client.StoreAndAnchor(p, st, online, ws, gw, entry, clientId);
            o.ledger == ws && o.result.Err?
    ensures var o := Client.StoreAndAnchor(p, st, online, ws, gw, entry, clientId);
            o.submitted.Some? && |o.submitted.value| == 3 && gw.dispatched
            && Ledger.CreateAsset(ws, gw.endorser, o.submitted.value[0], o.submitted.value[1], clientId).Ok? ==>
              o.result == Err(CommitRejected(gw.commit.transactionId, gw.commit.code))
  {
  }

  /** WriteLog keeps the store valid and every ledger record anchored. */
  lemma WriteLogPreservesConsistency(p: Primitives, st: Store, online: bool, ws: Ledger.WorldState,
                                     gw: Client.Gateway, now: Time, content: string, clientId: string)
    requires Valid(st) && Consistent(p, st, ws)
    ensures var o := Client.WriteLog(p, st, online, ws, gw, now, content, clientId);
            Valid(o.store) && Consistent(p, o.store, o.ledger)
  {
    StoreAndAnchorPreservesConsistency(p, st, online, ws, gw, Client.NewEntry(content, now, clientId), clientId);
  }

  /** Reading records that are all on a consistent ledger reports every entry as verified. */
  lemma {:induction false} ReadLogsAllVerified(p: Primitives, st: Store, ws: Ledger.WorldState, chain: seq<Ledger.Asset>)
    requires Valid(st) && Consistent(p, st, ws)
    requires forall i :: 0 <= i < |chain| ==> chain[i] in ws.Values
    ensures var r := Client.ReadLogs(st, true, Ok(Client.Decoded(chain)));
      && r.Ok? && |r.value.entries| == |chain|
      && forall i :: 0 <= i < |chain| ==> Verified(p, st, r.value.entries[i], r.value.hashes[i])
  {
    var r := Client.ReadLogs(st, true, Ok(Client.Decoded(chain)));
    var sorted := StableSort.SortByTimestamp(chain);
    forall i | 0 <= i < |chain|
      ensures Verified(p, st, r.value.entries[i], r.value.hashes[i])
    {
      assert sorted[i] in multiset(chain);
      var k :| k in ws && ws[k] == sorted[i];
      assert Anchored(p, st, ws[k]);
      VerifiedIffAnchored(p, st, sorted[i]);
    }
  }

  /** The same for a page of records. */
  lemma {:induction false} PageAllVerified(p: Primitives, st: Store, ws: Ledger.WorldState, page: Client.RawPage)
    requires Valid(st) && Consistent(p, st, ws)
    requires forall i :: 0 <= i < |page.records| ==> page.records[i] in ws.Values
    ensures var r := Client.ReadLogsWithPagination(st, true, Ok(Client.Decoded(page)));
      && r.Ok? && |r.value.entries| == |page.records|
      && forall i :: 0 <= i < |page.records| ==> Verified(p, st, r.value.entries[i], r.value.hashes[i])
  {
    var r := Client.ReadLogsWithPagination(st, true, Ok(Client.Decoded(page)));
    forall i | 0 <= i < |page.records|
      ensures Verified(p, st, r.value.entries[i], r.value.hashes[i])
    {
      var k :| k in ws && ws[k] == page.records[i];
      assert Anchored(p, st, ws[k]);
      VerifiedIffAnchored(p, st, page.records[i]);
    }
  }

  /** Whatever GetAllAssets keeps from a scan of the ledger is on the ledger. */
  lemma ScanRecordsOnLedger(ws: Ledger.WorldState, order: seq<string>, filter: string)
    requires forall i :: 0 <= i < |order| ==> order[i] in ws
    ensures var chain := Ledger.GetAllAssets(Ok(Ledger.Scan(ws, order)), filter);
            chain.Ok? && forall j :: 0 <= j < |chain.value| ==> chain.value[j] in ws.Values
  {
    var steps := Ledger.Scan(ws, order);
    var all := Ledger.Values(steps);
    assert forall i :: 0 <= i < |all| ==> all[i] in ws.Values by {
      forall i | 0 <= i < |all|
        ensures all[i] in ws.Values
      {
        assert steps[i] == Ok(ws[order[i]]);
      }
    }
    var chain := Ledger.GetAllAssets(Ok(steps), filter);
    var idx := Seqs.FilterIndices(all, Ledger.SourceMatches(filter));
    assert Seqs.SelectsExactly(chain.value, all, idx, Ledger.SourceMatches(filter));
    forall j | 0 <= j < |chain.value|
      ensures chain.value[j] in ws.Values
    {
      assert chain.value[j] == all[idx[j]];
    }
  }

  /** A full scan of a consistent ledger, filtered by any source and read back through
      ReadLogs, reports every entry as verified. */
  lemma ScanReadAllVerified(p: Primitives, st: Store, ws: Ledger.WorldState, order: seq<string>, filter: string)
    requires Valid(st) && Consistent(p, st, ws)
    requires forall i :: 0 <= i < |order| ==> order[i] in ws
    ensures var chain := Ledger.GetAllAssets(Ok(Ledger.Scan(ws, order)), filter);
      && chain.Ok?
      && var r := Client.ReadLogs(st, true, Ok(Client.Decoded(chain.value)));
      && r.Ok?
      && forall i :: 0 <= i < |r.value.entries| ==> Verified(p, st, r.value.entries[i], r.value.hashes[i])
  {
    var chain := Ledger.GetAllAssets(Ok(Ledger.Scan(ws, order)), filter);
    ScanRecordsOnLedger(ws, order, filter);
    ReadLogsAllVerified(p, st, ws, chain.value);
  }

  /** The query oracle only returns records that are on the ledger. */
  ghost predicate QueriesLedger(query: Ledger.RichQuery, ws: Ledger.WorldState) {
    forall source, size, bookmark ::
      query(source, size, bookmark).QueryOk? ==>
        forall i :: 0 <= i < |query(source, size, bookmark).steps| ==>
          query(source, size, bookmark).steps[i].Ok? ==> query(source, size, bookmark).steps[i].value in ws.Values
  }

  /** A page served from a consistent ledger and read back through ReadLogsWithPagination
      reports every entry as verified, with the chaincode's bookmark and next-page flag. */
  lemma PageQueryAllVerified(p: Primitives, st: Store, ws: Ledger.WorldState, query: Ledger.RichQuery,
                             source: string, pageSize: int, bookmark: string)
    requires Valid(st) && Consistent(p, st, ws) && QueriesLedger(query, ws)
    ensures var page := Ledger.GetAssetsWithFilter(query, source, pageSize, bookmark);
      page.Some? ==>
        var r := Client.ReadLogsWithPagination(st, true, Ok(Client.Decoded(Client.ToRawPage(page.value))));
        && r.Ok?
        && r.value.bookmark == page.value.bookmark
        && r.value.hasNextPage == page.value.hasNextPage
        && forall i :: 0 <= i < |r.value.entries| ==> Verified(p, st, r.value.entries[i], r.value.hashes[i])
  {
    var page := Ledger.GetAssetsWithFilter(query, source, pageSize, bookmark);
    if page.Some? {
      var first := query(source, Ledger.Int32(pageSize), bookmark);
      var raw := Client.ToRawPage(page.value);
      forall i | 0 <= i < |raw.records|
        ensures raw.records[i] in ws.Values
      {
        assert first.steps[i].Ok?;
      }
      PageAllVerified(p, st, ws, raw);
    }
  }

  /** Replacing an anchored row by one whose hash differs makes every read of that
      record report it as not verified. */
  lemma TamperDetected(p: Primitives, st: Store, ws: Ledger.WorldState, a: Ledger.Asset, forged: LogEntry)
    requires Valid(st) && Consistent(p, st, ws) && a in ws.Values
    requires forged.id == Client.BlobId(a.blobPath)
    requires Hash(p, forged) != Hash(p, st.rows[forged.id])
    ensures var st' := st.(rows := st.rows[forged.id := forged]);
            Valid(st') && !Verified(p, st', Client.Resolve(st', true, a.blobPath), a.hash)
  {
    assert forged.id in st.rows && a.hash == Hash(p, st.rows[forged.id]) by {
      var k :| k in ws && ws[k] == a;
      assert Anchored(p, st, ws[k]);
    }
    ReplaceAnchoredRow(p, st, a, forged);
  }

  /** Replacing an anchored row goes unnoticed exactly when SHA-256 maps the forged row's
      canonical string to the same digest as the original's: detection depends on the
      digests of those two strings only. */
  lemma CanonicalChangeDetected(p: Primitives, st: Store, ws: Ledger.WorldState, a: Ledger.Asset, forged: LogEntry)
    requires Valid(st) && Consistent(p, st, ws) && a in ws.Values
    requires forged.id == Client.BlobId(a.blobPath)
    ensures var st' := st.(rows := st.rows[forged.id := forged]);
            !Verified(p, st', Client.Resolve(st', true, a.blobPath), a.hash)
            <==> p.sha256(Canonical(p, forged)) != p.sha256(Canonical(p, st.rows[forged.id]))
  {
    var id := forged.id;
    assert id in st.rows && a.hash == Hash(p, st.rows[id]) by {
      var k :| k in ws && ws[k] == a;
      assert Anchored(p, st, ws[k]);
    }
    var st' := st.(rows := st.rows[id := forged]);
    ReplaceAnchoredRow(p, st, a, forged);
    HashEqualIffDigestEqual(p, forged, st.rows[id]);
  }

  /** Reading a record back after its row is replaced verifies exactly when the
      replacement hashes to the recorded hash. */
  lemma ReplaceAnchoredRow(p: Primitives, st: Store, a: Ledger.Asset, forged: LogEntry)
    requires Valid(st) && forged.id == Client.BlobId(a.blobPath) && forged.id in st.rows
    ensures var st' := st.(rows := st.rows[forged.id := forged]);
            Valid(st') && (Verified(p, st', Client.Resolve(st', true, a.blobPath), a.hash) <==> a.hash == Hash(p, forged))
  {
    var st' := st.(rows := st.rows[forged.id := forged]);
    VerifiedIffAnchored(p, st', a);
  }

  /** The canonical string has no separators, so a row can be altered without detection:
      moving text between its last field and its timestamp's rendering, whatever SHA-256
      is, yields a different row that still verifies. */
  lemma TamperUndetected(p: Primitives, id: nat, t1: Time, t2: Time)
    requires 0 < id <= MaxRowId && t1 != t2
    ensures var original := LogEntry(id, "", t1, p.rfc3339Nano(UTC(t2)));
            var forged := LogEntry(id, p.rfc3339Nano(UTC(t1)), t2, "");
            var st := Store(map[id := original], id + 1);
            var st' := Store(map[id := forged], id + 1);
            && forged != original
            && Valid(st) && Valid(st')
            && Verified(p, st, original, Hash(p, original))
            && Verified(p, st', original, Hash(p, original))
  {
    FieldShiftCollision(p, id, t1, t2);
  }
}

=== FILE: ledger.dfy ===
/** The anchoring chaincode (chaincode-go/chaincode/smartcontract.go): the
    world state is a map from keys to assets; the peer's transaction context
    (timestamp, random identifier, wall clock, state reads) and its CouchDB rich
    query are supplied from outside. */
module Ledger {
  import opened Base
  import Seqs

  /** An anchor record. Fields are in alphabetical order so that the JSON
      encoding is byte-identical across implementations. */
  datatype Asset = Asset(blobPath: string, hash: string, logId: string, source: string, timestamp: string)

  type WorldState = map<string, Asset>

  /** What the peer supplies to one execution of CreateAsset. */
  datatype TxEnv = TxEnv(
    txStamp: Option<string>,  // the transaction timestamp as "20060102T150405Z" in UTC; None when GetTxTimestamp fails
    uuid: string,             // `uuid.New().String()`
    now: string,              // `time.Now().UTC().Format(time.RFC3339)`
    stateReadable: bool,      // whether GetState succeeds
    stateWritable: bool       // whether PutState succeeds
  )

  /** The composite key of an anchor: time first, so that key order follows transaction time. */
  function AssetKey(stamp: string, uuid: string): string {
    "asset:" + stamp + ":" + uuid
  }

  /** `assetExists`: whether the key holds a record, or the read error. */
  function AssetExists(ws: WorldState, readable: bool, key: string): (r: Result<bool>)
    ensures r.Ok? <==> readable
    ensures r.Ok? ==> (r.value <==> key in ws)
  {
    if readable then Ok(key in ws) else Err(StateReadFailed)
  }

  /** `CreateAsset`: derives the key from the transaction timestamp and a fresh
      uuid, refuses to overwrite an existing key, and otherwise adds exactly one
      asset under that key, leaving every other key untouched. */
  function CreateAsset(ws: WorldState, env: TxEnv, blobPath: string, hash: string, source: string): (r: Result<WorldState>)
    ensures env.txStamp.None? ==> r == Err(TxTimestampFailed)
    ensures env.txStamp.Some? && !env.stateReadable ==> r == Err(StateReadFailed)
    ensures env.txStamp.Some? && env.stateReadable ==>
      var key := "asset:" + env.txStamp.value + ":" + env.uuid;
      && (key in ws ==> r == Err(AlreadyExists(key)))
      && (key !in ws && !env.stateWritable ==> r == Err(StateWriteFailed))
      && (key !in ws && env.stateWritable ==>
            && r.Ok?
            && r.value.Keys == ws.Keys + {key}
            && r.value[key] == Asset(blobPath, hash, key, source, env.now)
            && (forall k :: k in ws ==> r.value[k] == ws[k]))
  {
    match env.txStamp
    case None => Err(TxTimestampFailed)
    case Some(stamp) =>
      var key := AssetKey(stamp, env.uuid);
      match AssetExists(ws, env.stateReadable, key)
      case Err(e) => Err(e)
      case Ok(exists_) =>
        if exists_ then Err(AlreadyExists(key))
        else if !env.stateWritable then Err(StateWriteFailed)
        else Ok(ws[key := Asset(blobPath, hash, key, source, env.now)])
  }

  /** Every asset is filed under its own LogID. */
  ghost predicate WellKeyed(ws: WorldState) {
    forall k :: k in ws ==> ws[k].logId == k
  }

  lemma CreateAssetPreservesWellKeyed(ws: WorldState, env: TxEnv, blobPath: string, hash: string, source: string)
    requires WellKeyed(ws)
    ensures var r := CreateAsset(ws, env, blobPath, hash, source);
            r.Ok? ==> WellKeyed(r.value)
  {
  }

  /** Re-running a creation with the same timestamp and uuid is refused rather than overwriting. */
  lemma CreateAssetNeverOverwrites(ws: WorldState, env: TxEnv, blobPath: string, hash: string, source: string,
                                   blobPath': string, hash': string, source': string)
    requires CreateAsset(ws, env, blobPath, hash, source).Ok?
    ensures CreateAsset(CreateAsset(ws, env, blobPath, hash, source).value, env, blobPath', hash', source')
            == Err(AlreadyExists(AssetKey(env.txStamp.value, env.uuid)))
  {
  }

  /** Two endorsing peers that draw different uuids (or read different clocks) compute
      different world states for the same proposal: the chaincode is not deterministic. */
  lemma EndorsementsDiverge(ws: WorldState, env1: TxEnv, env2: TxEnv, blobPath: string, hash: string, source: string)
    requires env1.txStamp == env2.txStamp
    requires env1.uuid != env2.uuid || env1.now != env2.now
    requires CreateAsset(ws, env1, blobPath, hash, source).Ok? && CreateAsset(ws, env2, blobPath, hash, source).Ok?
    ensures CreateAsset(ws, env1, blobPath, hash, source) != CreateAsset(ws, env2, blobPath, hash, source)
  {
    var stamp := env1.txStamp.value;
    var k1 := AssetKey(stamp, env1.uuid);
    var k2 := AssetKey(stamp, env2.uuid);
    var r1 := CreateAsset(ws, env1, blobPath, hash, source).value;
    var r2 := CreateAsset(ws, env2, blobPath, hash, source).value;
    if env1.uuid != env2.uuid {
      assert k1[|"asset:" + stamp + ":"|..] == env1.uuid;
      assert k2[|"asset:" + stamp + ":"|..] == env2.uuid;
      assert k1 != k2;
      assert k1 in r1 && k1 !in r2;
    } else {
      assert r1[k1].timestamp != r2[k1].timestamp;
    }
  }

  // ---------------------------------------------------------------------------
  // Queries.

  /** One step of a state iterator: the decoded asset, or the error `Next` or
      `json.Unmarshal` reported for it. */
  type Step = Result<Asset>

  predicate AllOk(steps: seq<Step>) {
    forall i :: 0 <= i < |steps| ==> steps[i].Ok?
  }

  function Values(steps: seq<Step>): (r: seq<Asset>)
    requires AllOk(steps)
    ensures |r| == |steps| && forall i :: 0 <= i < |steps| ==> r[i] == steps[i].value
  {
    seq(|steps|, i requires 0 <= i < |steps| => steps[i].value)
  }

  /** Drains an iterator: every asset in order, or the first error met. */
  function Collect(steps: seq<Step>): (r: Result<seq<Asset>>)
    ensures r.Ok? <==> AllOk(steps)
    ensures r.Ok? ==> r.value == Values(steps)
    ensures r.Err? ==> exists i :: 0 <= i < |steps| && steps[i] == Err(r.error) && AllOk(steps[..i])
  {
    if |steps| == 0 then Ok([])
    else match steps[0]
      case Err(e) => (assert AllOk(steps[..0]); Err(e))
      case Ok(a) =>
        match Collect(steps[1..])
        case Err(e) =>
          (ghost var i :| 0 <= i < |steps[1..]| && steps[1..][i] == Err(e) && AllOk(steps[1..][..i]);
           assert steps[i + 1] == Err(e);
           assert AllOk(steps[..i + 1]);
           Err(e))
        case Ok(rest) => Ok([a] + rest)
  }

  /** The selection GetAllAssets applies: everything for an empty filter, else equality on Source. */
  function SourceMatches(filter: string): Asset -> bool {
    (a: Asset) => filter == "" || a.source == filter
  }

  lemma SourceFilterFacts(all: seq<Asset>, filter: string)
    ensures Seqs.SelectsExactly(Seqs.Filter(all, SourceMatches(filter)), all,
                                Seqs.FilterIndices(all, SourceMatches(filter)), SourceMatches(filter))
    ensures filter == "" ==> Seqs.Filter(all, SourceMatches(filter)) == all
  {
    Seqs.FilterSelectsExactly(all, SourceMatches(filter));
    if filter == "" {
      Seqs.FilterKeepsAll(all, SourceMatches(filter));
    }
  }

  /** `GetAllAssets`: a full range scan, keeping the assets whose Source equals the filter
      (all of them for an empty filter), in iteration order. Any scan error aborts. */
  function GetAllAssets(scan: Result<seq<Step>>, filter: string): (r: Result<seq<Asset>>)
    ensures scan.Err? ==> r == Err(scan.error)
    ensures scan.Ok? ==> (r.Ok? <==> AllOk(scan.value))
    ensures r.Ok? ==>
      var all := Values(scan.value);
      Seqs.SelectsExactly(r.value, all, Seqs.FilterIndices(all, SourceMatches(filter)), SourceMatches(filter))
    ensures r.Ok? && filter == "" ==> r.value == Values(scan.value)
    ensures scan.Ok? && r.Err? ==>
              exists i :: 0 <= i < |scan.value| && scan.value[i] == Err(r.error) && AllOk(scan.value[..i])
  {
    match scan
    case Err(e) => Err(e)
    case Ok(steps) =>
      match Collect(steps)
      case Err(e) => Err(e)
      case Ok(all) =>
        SourceFilterFacts(all, filter);
        Ok(Seqs.Filter(all, SourceMatches(filter)))
  }

  /** The scan a range query over `ws` produces when it visits the keys in `order`. */
  function Scan(ws: WorldState, order: seq<string>): (r: seq<Step>)
    requires forall i :: 0 <= i < |order| ==> order[i] in ws
    ensures AllOk(r) && |r| == |order|
    ensures forall i :: 0 <= i < |order| ==> r[i] == Ok(ws[order[i]])
  {
    seq(|order|, i requires 0 <= i < |order| => Ok(ws[order[i]]))
  }

  /** Every asset a scan returns is in the world state. */
  lemma ScanValuesOnLedger(ws: WorldState, order: seq<string>)
    requires forall i :: 0 <= i < |order| ==> order[i] in ws
    ensures forall a :: a in Values(Scan(ws, order)) ==> a in ws.Values
  {
    var all := Values(Scan(ws, order));
    forall a | a in all
      ensures a in ws.Values
    {
      var i :| 0 <= i < |all| && all[i] == a;
      assert order[i] in ws && a == ws[order[i]];
    }
  }

  /** A scan that visits every key returns every asset of the world state. */
  lemma ScanValuesCoverLedger(ws: WorldState, order: seq<string>)
    requires forall i :: 0 <= i < |order| ==> order[i] in ws
    requires forall k :: k in ws ==> k in order
    ensures forall k :: k in ws ==> ws[k] in Values(Scan(ws, order))
  {
    var all := Values(Scan(ws, order));
    forall k | k in ws
      ensures ws[k] in all
    {
      var i :| 0 <= i < |order| && order[i] == k;
      assert all[i] == ws[k];
    }
  }

  /** A range scan visiting every key of the world state returns every asset, and only those. */
  lemma GetAllAssetsReturnsWorldState(ws: WorldState, order: seq<string>)
    requires forall i :: 0 <= i < |order| ==> order[i] in ws
    requires forall k :: k in ws ==> k in order
    ensures var r := GetAllAssets(Ok(Scan(ws, order)), "");
            && r.Ok?
            && (forall a :: a in r.value ==> a in ws.Values)
            && (forall k :: k in ws ==> ws[k] in r.value)
  {
    assert GetAllAssets(Ok(Scan(ws, order)), "") == Ok(Values(Scan(ws, order)));
    ScanValuesOnLedger(ws, order);
    ScanValuesCoverLedger(ws, order);
  }

  // ---------------------------------------------------------------------------
  // Paginated rich query.

  /** What the CouchDB rich query reports: the page's iterator and its metadata. */
  datatype QueryResponse = QueryFailed | QueryOk(steps: seq<Step>, fetchedCount: int, bookmark: string)

  /** `GetQueryResultWithPagination(selector on Source, pageSize, bookmark)`. */
  type RichQuery = (string, int, string) -> QueryResponse

  datatype PaginatedQueryResult = PaginatedQueryResult(records: Slice<Asset>, fetchedRecordsCount: int, bookmark: string, hasNextPage: bool)

  /** Go's `int32(n)`: the two's-complement truncation to 32 bits. */
  function Int32(n: int): (r: int)
    ensures -0x8000_0000 <= r < 0x8000_0000
    ensures (r - n) % 0x1_0000_0000 == 0
    ensures -0x8000_0000 <= n < 0x8000_0000 ==> r == n
  {
    (n + 0x8000_0000) % 0x1_0000_0000 - 0x8000_0000
  }

  /** `constructQueryResponseFromIterator`: every asset of the iterator in order (a nil
      slice when there are none), or the first error. */
  function ConstructQueryResponseFromIterator(steps: seq<Step>): (r: Result<Slice<Asset>>)
    ensures r.Ok? <==> AllOk(steps)
    ensures r.Ok? ==> r.value.Items() == Values(steps)
    ensures r.Ok? ==> (r.value.Nil? <==> |steps| == 0)
    ensures r.Err? ==> exists i :: 0 <= i < |steps| && steps[i] == Err(r.error) && AllOk(steps[..i])
  {
    match Collect(steps)
    case Err(e) => Err(e)
    case Ok(all) => if |all| == 0 then Ok(Nil) else Ok(Slice(all))
  }

  /** The size-1 lookahead at the returned bookmark, reporting whether a further page exists. */
  function ProbeNextPage(query: RichQuery, source: string, bookmark: string): (r: Option<bool>)
    ensures bookmark == "nil" ==> r == Some(false)
    ensures bookmark != "nil" ==> (r.None? <==> query(source, 1, bookmark).QueryFailed?)
    ensures r == Some(true) ==> bookmark != "nil" && query(source, 1, bookmark).fetchedCount > 0
    ensures bookmark != "nil" && query(source, 1, bookmark).QueryOk? ==>
              r == Some(query(source, 1, bookmark).fetchedCount > 0)
  {
    if bookmark == "nil" then Some(false)
    else match query(source, 1, bookmark)
      case QueryFailed => None
      case QueryOk(_, fetched, _) => Some(fetched > 0)
  }

  /** `GetAssetsWithFilter`: one page of the assets whose Source equals `source`, the first
      query's metadata, and `hasNextPage` from a size-1 probe at the returned bookmark.
      Every query or iterator failure yields no result and no error (`nil, nil`). */
  function GetAssetsWithFilter(query: RichQuery, source: string, pageSize: int, bookmark: string): (r: Option<PaginatedQueryResult>)
    ensures var first := query(source, Int32(pageSize), bookmark);
      r.None? <==>
        || first.QueryFailed?
        || !AllOk(first.steps)
        || (first.bookmark != "nil" && query(source, 1, first.bookmark).QueryFailed?)
    ensures r.Some? ==>
      var first := query(source, Int32(pageSize), bookmark);
      && r.value.records.Slice?
      && r.value.records.Items() == Values(first.steps)
      && r.value.fetchedRecordsCount == first.fetchedCount
      && r.value.bookmark == first.bookmark
      && (r.value.hasNextPage <==>
            first.bookmark != "nil" && query(source, 1, first.bookmark).fetchedCount > 0)
  {
    match query(source, Int32(pageSize), bookmark)
    case QueryFailed => None
    case QueryOk(steps, fetched, next) =>
      match ConstructQueryResponseFromIterator(steps)
      case Err(_) => None
      case Ok(assets) =>
        match ProbeNextPage(query, source, next)
        case None => None
        case Some(hasNext) =>
          var records := if assets.Nil? then Slice([]) else assets;
          Some(PaginatedQueryResult(records, fetched, next, hasNext))
  }
}

=== FILE: seqs.dfy ===
/** Sequence vocabulary shared by the ledger scan, the dashboard table and the
    file tail: order-preserving filtering, infix occurrence and flattening. */
module Seqs {

  /** Order-preserving selection of the elements satisfying `keep`: the
      append-inside-a-loop idiom of Go and `Array.prototype.filter` in JavaScript. */
  function Filter<T>(s: seq<T>, keep: T -> bool): (r: seq<T>)
    ensures |r| <= |s|
    ensures forall x :: x in r ==> x in s && keep(x)
  {
    if |s| == 0 then []
    else Filter(s[..|s| - 1], keep) + (if keep(s[|s| - 1]) then [s[|s| - 1]] else [])
  }

  /** The positions of `s` that `Filter` keeps, in increasing order. */
  function FilterIndices<T>(s: seq<T>, keep: T -> bool): seq<nat>
  {
    if |s| == 0 then []
    else FilterIndices(s[..|s| - 1], keep) + (if keep(s[|s| - 1]) then [|s| - 1] else [])
  }

  /** `idx` embeds `r` into `s` in increasing order, and hits exactly the positions of `s` whose
      element satisfies `keep`: `r` is the order-preserving subsequence of the kept elements. */
  ghost predicate SelectsExactly<T>(r: seq<T>, s: seq<T>, idx: seq<nat>, keep: T -> bool)
  {
    && |idx| == |r|
    && (forall j :: 0 <= j < |idx| ==> idx[j] < |s| && r[j] == s[idx[j]])
    && (forall j, k :: 0 <= j < k < |idx| ==> idx[j] < idx[k])
    && (forall i :: 0 <= i < |s| ==> (keep(s[i]) <==> i in idx))
  }

  /** `Filter` returns exactly the kept elements, in their original order. */
  lemma {:induction false} FilterSelectsExactly<T>(s: seq<T>, keep: T -> bool)
    ensures SelectsExactly(Filter(s, keep), s, FilterIndices(s, keep), keep)
  {
    if |s| > 0 {
      var p := s[..|s| - 1];
      FilterSelectsExactly(p, keep);
      SelectsExactlySnoc(Filter(p, keep), s, FilterIndices(p, keep), keep);
    }
  }

  /** Selecting from one more element extends the selection by that element if it is kept. */
  lemma SelectsExactlySnoc<T>(r: seq<T>, s: seq<T>, idx: seq<nat>, keep: T -> bool)
    requires |s| > 0 && SelectsExactly(r, s[..|s| - 1], idx, keep)
    ensures var n := |s| - 1;
            SelectsExactly(r + (if keep(s[n]) then [s[n]] else []), s,
                           idx + (if keep(s[n]) then [n] else []), keep)
  {
    var p := s[..|s| - 1];
    assert forall i :: 0 <= i < |p| ==> s[i] == p[i];
  }

  /** When every element is kept, filtering is the identity. */
  lemma {:induction false} FilterKeepsAll<T>(s: seq<T>, keep: T -> bool)
    requires forall i :: 0 <= i < |s| ==> keep(s[i])
    ensures Filter(s, keep) == s
  {
    if |s| > 0 {
      var p := s[..|s| - 1];
      var x := s[|s| - 1];
      forall i | 0 <= i < |p|
        ensures keep(p[i])
      {
        assert p[i] == s[i];
      }
      FilterKeepsAll(p, keep);
      assert p + [x] == s;
      FilterSnocKept(p, x, keep);
    }
  }

  /** Appending a kept element appends it to the filtered sequence. */
  lemma FilterSnocKept<T>(p: seq<T>, x: T, keep: T -> bool)
    requires keep(x)
    ensures Filter(p + [x], keep) == Filter(p, keep) + [x]
  {
    assert (p + [x])[..|p|] == p;
  }

  /** Filtering distributes over concatenation. */
  lemma {:induction false} FilterConcat<T>(a: seq<T>, b: seq<T>, keep: T -> bool)
    ensures Filter(a + b, keep) == Filter(a, keep) + Filter(b, keep)
  {
    if |b| > 0 {
      var n := |b| - 1;
      assert (a + b)[..|a + b| - 1] == a + b[..n];
      assert (a + b)[|a + b| - 1] == b[n];
      FilterConcat(a, b[..n], keep);
    } else {
      assert a + b == a;
    }
  }

  /** Filtering with two predicates that agree on every element gives the same result. */
  lemma {:induction false} FilterAgree<T>(s: seq<T>, keep1: T -> bool, keep2: T -> bool)
    requires forall i :: 0 <= i < |s| ==> keep1(s[i]) == keep2(s[i])
    ensures Filter(s, keep1) == Filter(s, keep2)
  {
    if |s| > 0 {
      FilterAgree(s[..|s| - 1], keep1, keep2);
    }
  }

  /** `t` occurs in `s` starting at position `k`. */
  predicate OccursAt<T(==)>(s: seq<T>, t: seq<T>, k: int)
  {
    0 <= k && k + |t| <= |s| && s[k..k + |t|] == t
  }

  /** Concatenation of a sequence of sequences. */
  function Flatten<T>(ss: seq<seq<T>>): seq<T>
  {
    if |ss| == 0 then [] else Flatten(ss[..|ss| - 1]) + ss[|ss| - 1]
  }

  lemma {:induction false} FlattenConcat<T>(a: seq<seq<T>>, b: seq<seq<T>>)
    ensures Flatten(a + b) == Flatten(a) + Flatten(b)
  {
    if |b| > 0 {
      var n := |b| - 1;
      assert (a + b)[..|a + b| - 1] == a + b[..n];
      assert (a + b)[|a + b| - 1] == b[n];
      FlattenConcat(a, b[..n]);
    } else {
      assert a + b == a;
    }
  }
}

=== FILE: stablesort.dfy ===
/** The stable ascending sort of anchor records by their Timestamp string
    (`sort.SliceStable` with `Timestamp < Timestamp` in ReadLogs). The model
    sorts by insertion; `StableSortUnique` shows that any sort which is ordered
    and keeps records with equal timestamps in their input order yields the same
    sequence, so the choice of algorithm is immaterial. */
module StableSort {
  import Text
  import Seqs
  import opened Ledger

  /** No record has a timestamp smaller, under Go's string order, than one before it. */
  ghost predicate SortedByTimestamp(s: seq<Asset>) {
    forall i, j :: 0 <= i < j < |s| ==> !Text.Less(s[j].timestamp, s[i].timestamp)
  }

  function WithTimestamp(ts: string): Asset -> bool {
    (a: Asset) => a.timestamp == ts
  }

  /** The records carrying timestamp `ts`, in their order within `s`. */
  function Tied(s: seq<Asset>, ts: string): seq<Asset> {
    Seqs.Filter(s, WithTimestamp(ts))
  }

  /** Places `x` after every record whose timestamp is not later than its own. */
  function Insert(t: seq<Asset>, x: Asset): seq<Asset>
  {
    if |t| == 0 then [x]
    else if Text.Less(x.timestamp, t[0].timestamp) then [x] + t
    else [t[0]] + Insert(t[1..], x)
  }

  lemma LessAsymmetric(a: string, b: string)
    requires Text.Less(a, b)
    ensures !Text.Less(b, a)
  {
    if Text.Less(b, a) {
      Text.LessTransitive(a, b, a);
      Text.LessIrreflexive(a);
    }
  }

  lemma {:induction false} InsertPermutes(t: seq<Asset>, x: Asset)
    ensures multiset(Insert(t, x)) == multiset(t) + multiset{x}
  {
    if |t| > 0 && !Text.Less(x.timestamp, t[0].timestamp) {
      InsertPermutes(t[1..], x);
      assert t == [t[0]] + t[1..];
    }
  }

  /** A record no later than every record of a sorted sequence can go in front of it. */
  lemma SortedCons(a: Asset, s: seq<Asset>)
    requires SortedByTimestamp(s)
    requires forall j :: 0 <= j < |s| ==> !Text.Less(s[j].timestamp, a.timestamp)
    ensures SortedByTimestamp([a] + s)
  {
    var r := [a] + s;
    forall i, j | 0 <= i < j < |r|
      ensures !Text.Less(r[j].timestamp, r[i].timestamp)
    {
      if i > 0 {
        assert r[i] == s[i - 1] && r[j] == s[j - 1];
      }
    }
  }

  lemma {:induction false} InsertSorted(t: seq<Asset>, x: Asset)
    requires SortedByTimestamp(t)
    ensures SortedByTimestamp(Insert(t, x))
  {
    if |t| > 0 {
      var t0 := t[0];
      if Text.Less(x.timestamp, t0.timestamp) {
        forall j | 0 <= j < |t|
          ensures !Text.Less(t[j].timestamp, x.timestamp)
        {
          if j == 0 {
            LessAsymmetric(x.timestamp, t0.timestamp);
          } else if Text.Less(t[j].timestamp, x.timestamp) {
            Text.LessTransitive(t[j].timestamp, x.timestamp, t0.timestamp);
          }
        }
        SortedCons(x, t);
      } else {
        var tail := t[1..];
        var rest := Insert(tail, x);
        InsertSorted(tail, x);
        InsertPermutes(tail, x);
        forall j | 0 <= j < |rest|
          ensures !Text.Less(rest[j].timestamp, t0.timestamp)
        {
          assert rest[j] in multiset(rest);
          if rest[j] != x {
            assert rest[j] in multiset(tail);
            var k :| 0 <= k < |tail| && tail[k] == rest[j];
            assert t[k + 1] == rest[j];
          }
        }
        SortedCons(t0, rest);
      }
    }
  }

  lemma {:induction false} FilterNoneKept(s: seq<Asset>, keep: Asset -> bool)
    requires forall i :: 0 <= i < |s| ==> !keep(s[i])
    ensures Seqs.Filter(s, keep) == []
  {
    if |s| > 0 {
      FilterNoneKept(s[..|s| - 1], keep);
    }
  }

  /** A record earlier than the head of a sorted sequence is tied with none of its records. */
  lemma InsertFrontStable(t: seq<Asset>, x: Asset, ts: string)
    requires SortedByTimestamp(t) && |t| > 0
    requires Text.Less(x.timestamp, t[0].timestamp)
    ensures Tied([x] + t, ts) == Tied(t, ts) + Tied([x], ts)
  {
    var w := WithTimestamp(ts);
    Seqs.FilterConcat([x], t, w);
    if x.timestamp == ts {
      forall i | 0 <= i < |t|
        ensures !w(t[i])
      {
        if t[i].timestamp == ts && i == 0 {
          Text.LessIrreflexive(ts);
        }
      }
      FilterNoneKept(t, w);
    } else {
      assert Tied([x], ts) == [];
    }
  }

  /** Inserting into a sorted sequence puts `x` after every record tied with it. */
  lemma {:induction false} InsertStable(t: seq<Asset>, x: Asset, ts: string)
    requires SortedByTimestamp(t)
    ensures Tied(Insert(t, x), ts) == Tied(t, ts) + Tied([x], ts)
  {
    if |t| == 0 {
      assert Insert(t, x) == [] + [x];
    } else if Text.Less(x.timestamp, t[0].timestamp) {
      InsertFrontStable(t, x, ts);
    } else {
      var w := WithTimestamp(ts);
      var t0 := t[0];
      assert t == [t0] + t[1..];
      InsertStable(t[1..], x, ts);
      Seqs.FilterConcat([t0], Insert(t[1..], x), w);
      Seqs.FilterConcat([t0], t[1..], w);
    }
  }

  /** `sort.SliceStable(chain, Timestamp <)`: ordered by timestamp, a permutation of the
      input, and records with equal timestamps keep their input order. */
  function SortByTimestamp(s: seq<Asset>): (r: seq<Asset>)
    ensures SortedByTimestamp(r)
    ensures |r| == |s| && multiset(r) == multiset(s)
    ensures forall ts :: Tied(r, ts) == Tied(s, ts)
  {
    if |s| == 0 then []
    else
      var t := SortByTimestamp(s[..|s| - 1]);
      InsertExtendsSort(t, s);
      Insert(t, s[|s| - 1])
  }

  /** Inserting the last record of `s` into a stable sort of the others is a stable sort of `s`. */
  lemma InsertExtendsSort(t: seq<Asset>, s: seq<Asset>)
    requires |s| > 0
    requires SortedByTimestamp(t)
    requires multiset(t) == multiset(s[..|s| - 1])
    requires forall ts :: Tied(t, ts) == Tied(s[..|s| - 1], ts)
    ensures var r := Insert(t, s[|s| - 1]);
            && SortedByTimestamp(r) && |r| == |s| && multiset(r) == multiset(s)
            && forall ts :: Tied(r, ts) == Tied(s, ts)
  {
    var p := s[..|s| - 1];
    var x := s[|s| - 1];
    InsertSorted(t, x);
    InsertPermutes(t, x);
    InsertStableAll(t, x, p);
    assert p + [x] == s;
    assert |Insert(t, x)| == |multiset(Insert(t, x))| == |multiset(s)| == |s|;
  }

  lemma InsertStableAll(t: seq<Asset>, x: Asset, p: seq<Asset>)
    requires SortedByTimestamp(t)
    requires forall ts :: Tied(t, ts) == Tied(p, ts)
    ensures forall ts :: Tied(Insert(t, x), ts) == Tied(p + [x], ts)
  {
    forall ts
      ensures Tied(Insert(t, x), ts) == Tied(p + [x], ts)
    {
      InsertStable(t, x, ts);
      Seqs.FilterConcat(p, [x], WithTimestamp(ts));
    }
  }

  /** A stable sort has only one possible outcome: a sequence ordered by timestamp whose
      records with any given timestamp appear as in the input is exactly `SortByTimestamp`. */
  lemma StableSortUnique(r: seq<Asset>, s: seq<Asset>)
    requires SortedByTimestamp(r)
    requires forall ts :: Tied(r, ts) == Tied(s, ts)
    ensures r == SortByTimestamp(s)
  {
    SortedWithSameTiesEqual(r, SortByTimestamp(s));
  }

  lemma TiedContainsLast(s: seq<Asset>)
    requires |s| > 0
    ensures Tied(s, s[|s| - 1].timestamp) == Tied(s[..|s| - 1], s[|s| - 1].timestamp) + [s[|s| - 1]]
  {
  }

  /** In a sorted sequence, the last record's timestamp is not smaller than any record's. */
  lemma LastIsLatest(s: seq<Asset>, a: Asset)
    requires SortedByTimestamp(s) && |s| > 0 && a in s
    ensures !Text.Less(s[|s| - 1].timestamp, a.timestamp)
  {
    var i :| 0 <= i < |s| && s[i] == a;
    if i < |s| - 1 {
      assert !Text.Less(s[|s| - 1].timestamp, s[i].timestamp);
    } else {
      Text.LessIrreflexive(a.timestamp);
    }
  }

  lemma CancelLast<T>(x: seq<T>, y: seq<T>, a: T, b: T)
    requires x + [a] == y + [b]
    ensures x == y && a == b
  {
    assert |x| == |y|;
    assert x == (x + [a])[..|x|];
    assert y == (y + [b])[..|y|];
    assert a == (x + [a])[|x|];
  }

  lemma {:induction false} SortedWithSameTiesEqual(r1: seq<Asset>, r2: seq<Asset>)
    requires SortedByTimestamp(r1) && SortedByTimestamp(r2)
    requires forall ts :: Tied(r1, ts) == Tied(r2, ts)
    ensures r1 == r2
    decreases |r1| + |r2|
  {
    if |r1| == 0 && |r2| == 0 {
    } else if |r1| == 0 {
      TiedContainsLast(r2);
      assert false;
    } else if |r2| == 0 {
      TiedContainsLast(r1);
      assert false;
    } else {
      var a1 := r1[|r1| - 1];
      var a2 := r2[|r2| - 1];
      TiedContainsLast(r1);
      TiedContainsLast(r2);
      assert a1 in Tied(r2, a1.timestamp);
      assert a2 in Tied(r1, a2.timestamp);
      LastIsLatest(r2, a1);
      LastIsLatest(r1, a2);
      if a1.timestamp != a2.timestamp {
        Text.LessTotal(a1.timestamp, a2.timestamp);
        assert false;
      }
      var k := a1.timestamp;
      var p1 := r1[..|r1| - 1];
      var p2 := r2[..|r2| - 1];
      assert Tied(p1, k) + [a1] == Tied(p2, k) + [a2];
      CancelLast(Tied(p1, k), Tied(p2, k), a1, a2);
      forall ts
        ensures Tied(p1, ts) == Tied(p2, ts)
      {
        if ts != k {
          assert Tied(r1, ts) == Tied(p1, ts);
          assert Tied(r2, ts) == Tied(p2, ts);
        }
      }
      assert SortedByTimestamp(p1) && SortedByTimestamp(p2);
      SortedWithSameTiesEqual(p1, p2);
      assert r1 == p1 + [a1] && r2 == p2 + [a2];
    }
  }
}

=== FILE: tail.dfy ===
/** `WatchFile` (log-client/internal/utils.go) as a state machine over the file's
    contents and the events the watcher receives.

    The file is opened and positioned at its end, so earlier content is never
    delivered. On a write notification the buffered reader is drained with
    `ReadString('\n')`: every complete line, newline included, goes to the line
    handler in order; at end of file `ReadString` returns the unterminated
    remainder together with an error, the loop stops, and that remainder, already
    consumed from the reader, is dropped. Other notifications and watcher errors
    deliver nothing; the stop signal ends the loop. */
module Tail {
  import Seqs

  /** What happens while the watcher runs: another process appends to the file, the
      watcher reports an event (a write or some other operation), the watcher reports an
      error, or the stop channel fires. */
  datatype Event = Appended(data: string) | Notified(isWrite: bool) | WatchError | StopSignal

  /** One result of `ReadString('\n')`: a line with its newline, or the unterminated
      remainder returned together with the end-of-file error. */
  datatype Chunk = Line(text: string) | Fragment(text: string)

  predicate NoNewline(s: string) {
    forall i :: 0 <= i < |s| ==> s[i] != '\n'
  }

  /** A line ends in its only newline; a recorded fragment is non-empty and has none. */
  predicate WellFormed(c: Chunk) {
    match c
    case Line(t) => |t| > 0 && t[|t| - 1] == '\n' && NoNewline(t[..|t| - 1])
    case Fragment(t) => |t| > 0 && NoNewline(t)
  }

  function Texts(cs: seq<Chunk>): (r: seq<string>)
    ensures |r| == |cs| && forall i :: 0 <= i < |cs| ==> r[i] == cs[i].text
  {
    seq(|cs|, i requires 0 <= i < |cs| => cs[i].text)
  }

  /** All the text the reader has consumed, in order. */
  function Consumed(cs: seq<Chunk>): string {
    Seqs.Flatten(Texts(cs))
  }

  function IsLine(c: Chunk): bool { c.Line? }

  /** The strings handed to the line handler, in order. */
  function Delivered(cs: seq<Chunk>): seq<string> {
    Texts(Seqs.Filter(cs, IsLine))
  }

  /** The position of the first newline at or after `from`, or the end of `s`. */
  function NewlineFrom(s: string, from: nat): (k: nat)
    requires from <= |s|
    ensures from <= k <= |s|
    ensures NoNewline(s[from..k])
    ensures k < |s| ==> s[k] == '\n'
    decreases |s| - from
  {
    if from == |s| || s[from] == '\n' then from else NewlineFrom(s, from + 1)
  }

  /** The first newline found is the first newline there is. */
  lemma {:induction false} NewlineFromFirst(s: string, from: nat, j: nat)
    requires from <= j < |s| && s[j] == '\n' && NoNewline(s[from..j])
    ensures NewlineFrom(s, from) == j
    decreases j - from
  {
    if from < j {
      assert s[from..j][0] == s[from];
      assert s[from + 1..j] == s[from..j][1..];
      NewlineFromFirst(s, from + 1, j);
    }
  }

  /** `reader.ReadString('\n')` at offset `pos`: the text up to and including the next
      newline, or, when there is none, the rest of the file as a fragment. Returns the
      chunk and the new offset. */
  function ReadString(file: string, pos: nat): (r: (Chunk, nat))
    requires pos <= |file|
    ensures pos <= r.1 <= |file| && r.0.text == file[pos..r.1]
    ensures r.0.Line? <==> !NoNewline(file[pos..])
    ensures r.0.Line? ==> WellFormed(r.0) && pos < r.1
    ensures r.0.Fragment? ==> r.1 == |file| && NoNewline(r.0.text)
  {
    var k := NewlineFrom(file, pos);
    if k < |file| then
      assert file[pos..][k - pos] == '\n';
      assert file[pos..k + 1][..k - pos] == file[pos..k];
      (Line(file[pos..k + 1]), k + 1)
    else
      (Fragment(file[pos..]), |file|)
  }

  lemma FlattenCons(x: string, rest: seq<string>)
    ensures Seqs.Flatten([x] + rest) == x + Seqs.Flatten(rest)
  {
    Seqs.FlattenConcat([x], rest);
    assert Seqs.Flatten([x]) == Seqs.Flatten([]) + x;
  }

  lemma ConsumedCons(c: Chunk, rest: seq<Chunk>)
    ensures Consumed([c] + rest) == c.text + Consumed(rest)
  {
    assert Texts([c] + rest) == [c.text] + Texts(rest);
    FlattenCons(c.text, Texts(rest));
  }

  lemma ConsumedConcat(a: seq<Chunk>, b: seq<Chunk>)
    ensures Consumed(a + b) == Consumed(a) + Consumed(b)
  {
    assert Texts(a + b) == Texts(a) + Texts(b);
    Seqs.FlattenConcat(Texts(a), Texts(b));
  }

  lemma DeliveredConcat(a: seq<Chunk>, b: seq<Chunk>)
    ensures Delivered(a + b) == Delivered(a) + Delivered(b)
  {
    Seqs.FilterConcat(a, b, IsLine);
    assert Texts(Seqs.Filter(a, IsLine) + Seqs.Filter(b, IsLine))
        == Texts(Seqs.Filter(a, IsLine)) + Texts(Seqs.Filter(b, IsLine));
  }

  /** Lines before an optional final fragment: the shape of one drain. */
  predicate LinesThenFragment(cs: seq<Chunk>) {
    && (forall i :: 0 <= i < |cs| ==> WellFormed(cs[i]))
    && (forall i :: 0 <= i < |cs| - 1 ==> cs[i].Line?)
  }

  lemma DrainLineFirst(file: string, pos: nat, next: nat, c: Chunk, rest: seq<Chunk>)
    requires pos <= next <= |file| && c.text == file[pos..next]
    requires c.Line? && WellFormed(c)
    requires LinesThenFragment(rest) && Consumed(rest) == file[next..]
    ensures LinesThenFragment([c] + rest) && Consumed([c] + rest) == file[pos..]
  {
    ConsumedCons(c, rest);
    assert file[pos..] == file[pos..next] + file[next..];
    var cs := [c] + rest;
    forall i | 0 < i < |cs|
      ensures cs[i] == rest[i - 1]
    {
    }
  }

  /** The inner loop run on a write notification: read until `ReadString` fails. The
      fragment it ends with is recorded only when non-empty. */
  function Drain(file: string, pos: nat): (r: seq<Chunk>)
    requires pos <= |file|
    ensures LinesThenFragment(r)
    ensures Consumed(r) == file[pos..]
    decreases |file| - pos
  {
    var (c, next) := ReadString(file, pos);
    if c.Line? then
      var rest := Drain(file, next);
      DrainLineFirst(file, pos, next, c, rest);
      [c] + rest
    else if c.text == "" then
      assert Consumed([]) == "";
      []
    else
      ConsumedCons(c, []);
      [c]
  }

  /** A well-formed line found at `pos` is what `ReadString` returns there. */
  lemma ReadsLine(file: string, pos: nat, c: Chunk)
    requires c.Line? && WellFormed(c)
    requires pos + |c.text| <= |file| && file[pos..pos + |c.text|] == c.text
    ensures ReadString(file, pos) == (c, pos + |c.text|)
  {
    var t := c.text;
    assert file[pos + |t| - 1] == t[|t| - 1];
    assert file[pos..pos + |t| - 1] == t[..|t| - 1];
    NewlineFromFirst(file, pos, pos + |t| - 1);
  }

  /** A well-formed fragment that is all of the unread text is what `ReadString` returns. */
  lemma ReadsFragment(file: string, pos: nat, c: Chunk)
    requires c.Fragment? && WellFormed(c)
    requires pos <= |file| && c.text == file[pos..]
    ensures ReadString(file, pos).0 == c
  {
  }

  /** A drain is the only way to cut the unread text into lines and a final fragment. */
  lemma {:induction false} DrainUnique(file: string, pos: nat, cs: seq<Chunk>)
    requires pos <= |file|
    requires LinesThenFragment(cs) && Consumed(cs) == file[pos..]
    ensures cs == Drain(file, pos)
    decreases |cs|
  {
    if |cs| == 0 {
      assert |file[pos..]| == 0;
    } else {
      var c := cs[0];
      var rest := cs[1..];
      assert cs == [c] + rest;
      ConsumedCons(c, rest);
      var t := c.text;
      assert file[pos..pos + |t|] == t;
      if c.Line? {
        ReadsLine(file, pos, c);
        assert file[pos + |t|..] == file[pos..][|t|..];
        assert LinesThenFragment(rest);
        DrainUnique(file, pos + |t|, rest);
      } else {
        assert |rest| == 0;
        assert Consumed(rest) == "";
        ReadsFragment(file, pos, c);
      }
    }
  }

  /** The watcher's state: the file's contents, where it was opened, how far the reader
      has consumed, every chunk read so far, and whether the loop still runs. */
  datatype Watch = Watch(file: string, start: nat, pos: nat, chunks: seq<Chunk>, running: bool)

  /** The reader has consumed exactly the text appended since opening, as chunks. */
  ghost predicate Inv(w: Watch) {
    && w.start <= w.pos <= |w.file|
    && Consumed(w.chunks) == w.file[w.start..w.pos]
    && (forall i :: 0 <= i < |w.chunks| ==> WellFormed(w.chunks[i]))
  }

  /** Opening and seeking to the end: nothing consumed, nothing delivered. */
  function Open(file: string): (w: Watch)
    ensures Inv(w) && w.running && w.file == file
    ensures w.start == |file| && Delivered(w.chunks) == []
  {
    var w := Watch(file, |file|, |file|, [], true);
    assert Consumed([]) == "";
    w
  }

  /** One event. Appends happen whether or not the watcher runs; only a write
      notification to a running watcher reads anything. */
  function Step(w: Watch, ev: Event): (r: Watch)
    ensures w.file <= r.file && r.start == w.start
    ensures ev.Appended? ==> r.file == w.file + ev.data
    ensures !ev.Appended? ==> r.file == w.file
    ensures !(w.running && ev == Notified(true)) ==> r.chunks == w.chunks && r.pos == w.pos
    ensures w.running && ev == Notified(true) && w.pos <= |w.file| ==>
              r.file == w.file && r.pos == |r.file| && r.chunks == w.chunks + Drain(w.file, w.pos)
    ensures r.running <==> w.running && ev != StopSignal
  {
    match ev
    case Appended(data) => w.(file := w.file + data)
    case StopSignal => w.(running := false)
    case WatchError => w
    case Notified(isWrite) =>
      if !w.running || !isWrite || !(w.pos <= |w.file|) then w
      else w.(pos := |w.file|, chunks := w.chunks + Drain(w.file, w.pos))
  }

  lemma AppendPreservesInv(w: Watch, data: string)
    requires Inv(w)
    ensures Inv(w.(file := w.file + data))
  {
    assert (w.file + data)[w.start..w.pos] == w.file[w.start..w.pos];
  }

  lemma ExtendPreservesInv(w: Watch, d: seq<Chunk>)
    requires Inv(w)
    requires forall i :: 0 <= i < |d| ==> WellFormed(d[i])
    requires Consumed(d) == w.file[w.pos..]
    ensures Inv(w.(pos := |w.file|, chunks := w.chunks + d))
  {
    var cs := w.chunks + d;
    ConsumedConcat(w.chunks, d);
    assert w.file[w.start..w.pos] + w.file[w.pos..] == w.file[w.start..];
    forall i | 0 <= i < |cs|
      ensures WellFormed(cs[i])
    {
      if i >= |w.chunks| {
        assert cs[i] == d[i - |w.chunks|];
      }
    }
  }

  lemma DrainPreservesInv(w: Watch)
    requires Inv(w)
    ensures Inv(w.(pos := |w.file|, chunks := w.chunks + Drain(w.file, w.pos)))
  {
    ExtendPreservesInv(w, Drain(w.file, w.pos));
  }

  /** Every event keeps the reader's consumed text equal to what was appended since opening. */
  lemma StepPreservesInv(w: Watch, ev: Event)
    requires Inv(w)
    ensures Inv(Step(w, ev))
  {
    if ev.Appended? {
      AppendPreservesInv(w, ev.data);
    } else if w.running && ev == Notified(true) {
      DrainPreservesInv(w);
    }
  }

  /** The watcher loop: each event in turn, appends included. */
  function Run(w: Watch, evs: seq<Event>): (r: Watch)
    ensures r.start == w.start && w.file <= r.file
    ensures r.running ==> w.running
    decreases |evs|
  {
    if |evs| == 0 then w else Run(Step(w, evs[0]), evs[1..])
  }
  /** Running two batches of events one after the other is running them together:
      the loop keeps no state beyond the watcher. */
  lemma {:induction false} RunConcat(w: Watch, a: seq<Event>, b: seq<Event>)
    ensures Run(w, a + b) == Run(Run(w, a), b)
    decreases |a|
  {
    if |a| > 0 {
      assert (a + b)[0] == a[0];
      assert (a + b)[1..] == a[1..] + b;
      RunConcat(Step(w, a[0]), a[1..], b);
    } else {
      assert a + b == b;
    }
  }


  /** Running any events keeps the invariant; the file only grows, and chunks once read
      are never taken back. */
  lemma {:induction false} RunPreservesInv(w: Watch, evs: seq<Event>)
    requires Inv(w)
    ensures Inv(Run(w, evs))
    ensures w.file <= Run(w, evs).file && Run(w, evs).start == w.start
    ensures w.chunks <= Run(w, evs).chunks
    decreases |evs|
  {
    if |evs| > 0 {
      StepPreservesInv(w, evs[0]);
      RunPreservesInv(Step(w, evs[0]), evs[1..]);
    }
  }

  /** From opening onwards, the handler sees only lines appended after the file was
      opened, each ending in its only newline, in the order they were written. */
  lemma DeliversOnlyNewLines(file: string, evs: seq<Event>)
    ensures var w := Run(Open(file), evs);
      && file <= w.file && |file| <= w.pos <= |w.file|
      && Consumed(w.chunks) == w.file[|file|..w.pos]
      && forall i :: 0 <= i < |Delivered(w.chunks)| ==> WellFormed(Line(Delivered(w.chunks)[i]))
  {
    var w := Run(Open(file), evs);
    RunPreservesInv(Open(file), evs);
    var lines := Seqs.Filter(w.chunks, IsLine);
    forall i | 0 <= i < |lines|
      ensures WellFormed(Line(lines[i].text))
    {
      assert lines[i] in w.chunks && IsLine(lines[i]);
    }
  }

  /** After the stop signal nothing more is delivered, whatever happens to the file. */
  lemma {:induction false} StoppedDeliversNothing(w: Watch, evs: seq<Event>)
    requires !w.running
    ensures Run(w, evs).chunks == w.chunks && !Run(w, evs).running
    decreases |evs|
  {
    if |evs| > 0 {
      StoppedDeliversNothing(Step(w, evs[0]), evs[1..]);
    }
  }

  /** A write notification catches up: afterwards everything appended since opening has
      been read, the last drain's lines delivered and its fragment consumed. */
  lemma CatchesUp(w: Watch)
    requires Inv(w) && w.running
    ensures var r := Step(w, Notified(true));
            && r.pos == |r.file| && Consumed(r.chunks) == r.file[r.start..]
            && Delivered(r.chunks) == Delivered(w.chunks) + Delivered(Drain(w.file, w.pos))
  {
    var r := Step(w, Notified(true));
    StepPreservesInv(w, Notified(true));
    assert r.chunks == w.chunks + Drain(w.file, w.pos) && r.pos == |r.file|;
    assert r.file[r.start..r.pos] == r.file[r.start..];
    DeliveredConcat(w.chunks, Drain(w.file, w.pos));
  }

  lemma DrainFragmentOnly()
    ensures Drain("ab", 0) == [Fragment("ab")]
  {
    assert NewlineFrom("ab", 0) == 2;
  }

  lemma DrainOneLine()
    ensures Drain("abc\n", 2) == [Line("c\n")]
  {
    assert NewlineFrom("abc\n", 2) == 3;
    assert "abc\n"[2..4] == "c\n";
    assert ReadString("abc\n", 2) == (Line("c\n"), 4);
    assert ReadString("abc\n", 4).0 == Fragment("");
  }

  lemma DeliveredExample()
    ensures Delivered([Fragment("ab"), Line("c\n")]) == ["c\n"]
  {
    var cs := [Fragment("ab"), Line("c\n")];
    assert cs[..1] == [Fragment("ab")];
    assert Seqs.Filter([Fragment("ab")], IsLine) == [];
    assert Seqs.Filter(cs, IsLine) == [Line("c\n")];
  }

  lemma SplitStepAppendFirst()
    ensures Step(Open(""), Appended("ab")) == Watch("ab", 0, 0, [], true)
  {
  }

  lemma SplitStepReadFragment()
    ensures Step(Watch("ab", 0, 0, [], true), Notified(true)) == Watch("ab", 0, 2, [Fragment("ab")], true)
  {
    DrainFragmentOnly();
  }

  lemma SplitStepAppendRest()
    ensures Step(Watch("ab", 0, 2, [Fragment("ab")], true), Appended("c\n"))
         == Watch("abc\n", 0, 2, [Fragment("ab")], true)
  {
    assert "ab" + "c\n" == "abc\n";
  }

  lemma SplitStepReadLine()
    ensures Step(Watch("abc\n", 0, 2, [Fragment("ab")], true), Notified(true))
         == Watch("abc\n", 0, 4, [Fragment("ab"), Line("c\n")], true)
  {
    DrainOneLine();
  }

  lemma RunCons(w: Watch, ev: Event, evs: seq<Event>)
    ensures Run(w, [ev] + evs) == Run(Step(w, ev), evs)
  {
    assert ([ev] + evs)[1..] == evs;
  }

  /** A line written in two parts, with a write notification in between, reaches the
      handler truncated: the first part is consumed at end of file and dropped. */
  lemma SplitLineLosesPrefix()
    ensures var w := Run(Open(""), [Appended("ab"), Notified(true), Appended("c\n"), Notified(true)]);
            Delivered(w.chunks) == ["c\n"] && w.chunks == [Fragment("ab"), Line("c\n")]
  {
    var w1 := Watch("ab", 0, 0, [], true);
    var w2 := Watch("ab", 0, 2, [Fragment("ab")], true);
    var w3 := Watch("abc\n", 0, 2, [Fragment("ab")], true);
    var w4 := Watch("abc\n", 0, 4, [Fragment("ab"), Line("c\n")], true);
    SplitStepAppendFirst();
    SplitStepReadFragment();
    SplitStepAppendRest();
    SplitStepReadLine();
    RunCons(w3, Notified(true), []);
    RunCons(w2, Appended("c\n"), [Notified(true)]);
    RunCons(w1, Notified(true), [Appended("c\n"), Notified(true)]);
    RunCons(Open(""), Appended("ab"), [Notified(true), Appended("c\n"), Notified(true)]);
    DeliveredExample();
  }
}

=== FILE: text.dfy ===
/** The pieces of Go's `fmt`, `strconv` and `strings` packages that the
    pipeline relies on, written out so that their edge cases are explicit:
    decimal rendering of an unsigned id (`fmt.Sprint`, `%v`), `strconv.Atoi`
    with its error ignored, the `uint(...)` conversion, `strings.TrimSpace` and
    the ordering `<` on strings.

    Strings are sequences of Unicode code points. Go strings are UTF-8 bytes;
    for valid UTF-8 the two views agree on every operation used here (byte-wise
    order of UTF-8 is code-point order). */
module Text {
  import Seqs

  const MaxInt64: int := 0x7FFF_FFFF_FFFF_FFFF
  const MinInt64: int := -0x8000_0000_0000_0000
  const Two64: int := 0x1_0000_0000_0000_0000

  predicate IsDigit(c: char) {
    '0' <= c <= '9'
  }

  predicate AllDigits(s: string) {
    forall i :: 0 <= i < |s| ==> IsDigit(s[i])
  }

  function DigitChar(d: nat): (c: char)
    requires d < 10
    ensures IsDigit(c) && c as int - '0' as int == d
  {
    "0123456789"[d]
  }

  /** The decimal rendering of an unsigned integer (`fmt.Sprint(n)`, `%v`):
      at least one digit, and a leading zero only for zero itself. */
  function Decimal(n: nat): (r: string)
    ensures |r| > 0 && AllDigits(r)
    ensures r[0] == '0' <==> n == 0
    decreases n
  {
    if n < 10 then [DigitChar(n)] else Decimal(n / 10) + [DigitChar(n % 10)]
  }

  /** The value of a string of decimal digits. */
  function DigitsValue(s: string): nat
    requires AllDigits(s)
  {
    if |s| == 0 then 0
    else DigitsValue(s[..|s| - 1]) * 10 + (s[|s| - 1] as int - '0' as int)
  }

  /** Reading back a rendered number gives the number. */
  lemma {:induction false} DecimalRoundTrip(n: nat)
    ensures DigitsValue(Decimal(n)) == n
    decreases n
  {
    if n >= 10 {
      var d := Decimal(n / 10);
      assert Decimal(n)[..|Decimal(n)| - 1] == d;
      DecimalRoundTrip(n / 10);
    }
  }

  /** Rendering is injective: distinct ids give distinct blob paths. */
  lemma DecimalInjective(m: nat, n: nat)
    requires Decimal(m) == Decimal(n)
    ensures m == n
  {
    DecimalRoundTrip(m);
    DecimalRoundTrip(n);
  }

  /** The digits of a decimal literal once an optional leading sign is removed. */
  function Unsigned(s: string): string {
    if |s| > 0 && (s[0] == '+' || s[0] == '-') then s[1..] else s
  }

  /** `strconv.Atoi` accepts an optional sign followed by at least one decimal digit. */
  predicate ParsesAsInt(s: string) {
    |Unsigned(s)| > 0 && AllDigits(Unsigned(s))
  }

  const MaxUint64: int := Two64 - 1

  /** The longest prefix of `s` made of decimal digits. */
  function LeadingDigits(s: string): (d: string)
    ensures AllDigits(d) && |d| <= |s|
    ensures |d| < |s| ==> !IsDigit(s[|d|])
  {
    if |s| == 0 || !IsDigit(s[0]) then ""
    else [s[0]] + LeadingDigits(s[1..])
  }

  /** The leading digit run is a prefix of the string. */
  lemma {:induction false} LeadingDigitsPrefix(s: string)
    ensures LeadingDigits(s) <= s
  {
    if |s| > 0 && IsDigit(s[0]) {
      LeadingDigitsPrefix(s[1..]);
    }
  }

  /** A string of digits is its own leading digit run. */
  lemma {:induction false} LeadingDigitsAll(s: string)
    ensures AllDigits(s) ==> LeadingDigits(s) == s
  {
    if |s| > 0 && AllDigits(s) {
      LeadingDigitsAll(s[1..]);
      assert s == [s[0]] + s[1..];
    }
  }

  lemma {:induction false} LeadingDigitsAppend(d: string, rest: string)
    requires AllDigits(d) && (|rest| == 0 || !IsDigit(rest[0]))
    ensures LeadingDigits(d + rest) == d
  {
    if |d| > 0 {
      assert (d + rest)[1..] == d[1..] + rest;
      LeadingDigitsAppend(d[1..], rest);
    }
  }

  /** `strconv.ParseUint`'s loop over the digits of `s`, with `acc` the value read so
      far: true when a digit pushes the value past 2^64 - 1 before a non-digit or the
      end of the text is reached. The range error is reported at that digit, so
      whatever follows it is never examined. */
  predicate Overflows(s: string, acc: nat)
    decreases |s|
  {
    && |s| > 0 && IsDigit(s[0])
    && var next := acc * 10 + (s[0] as int - '0' as int);
       next > MaxUint64 || Overflows(s[1..], next)
  }

  /** `strconv.Atoi` reports a range error for `s`. */
  predicate RangeOverflow(s: string) {
    Overflows(Unsigned(s), 0)
  }

  function Pow10(n: nat): (r: nat)
    ensures r >= 1
  {
    if n == 0 then 1 else 10 * Pow10(n - 1)
  }

  /** Reading a leading digit: its weight is ten to the number of digits after it. */
  lemma {:induction false} DigitsValueCons(c: char, t: string)
    requires IsDigit(c) && AllDigits(t)
    ensures AllDigits([c] + t)
    ensures DigitsValue([c] + t) == (c as int - '0' as int) * Pow10(|t|) + DigitsValue(t)
    decreases |t|
  {
    var ct := [c] + t;
    assert AllDigits(ct) by {
      forall i | 0 <= i < |ct| ensures IsDigit(ct[i]) {
        if i > 0 { assert ct[i] == t[i - 1]; }
      }
    }
    if |t| > 0 {
      var init := t[..|t| - 1];
      assert ct[..|ct| - 1] == [c] + init;
      DigitsValueCons(c, init);
      var dc := c as int - '0' as int;
      var dl := t[|t| - 1] as int - '0' as int;
      ScaleDigit(dc, Pow10(|init|), DigitsValue(init), dl);
    }
  }

  /** The arithmetic of appending a digit below a leading digit of weight `w`. */
  lemma ScaleDigit(dc: nat, w: nat, v: nat, dl: nat)
    ensures (dc * w + v) * 10 + dl == dc * (10 * w) + (v * 10 + dl)
  {
  }

  /** The arithmetic of one step of the scan: the value read so far shifts left by
      one digit. */
  lemma ShiftDigit(acc: nat, dc: nat, w: nat, v: nat)
    ensures acc * (10 * w) + (dc * w + v) == (acc * 10 + dc) * w + v
    ensures w >= 1 ==> (acc * 10 + dc) * w + v >= acc * 10 + dc
  {
  }

  /** The scan overflows exactly when the value of the whole leading digit run, read
      after `acc`, exceeds 2^64 - 1. */
  lemma {:induction false} OverflowsValue(s: string, acc: nat)
    requires acc <= MaxUint64
    ensures var d := LeadingDigits(s);
            Overflows(s, acc) <==> acc * Pow10(|d|) + DigitsValue(d) > MaxUint64
    decreases |s|
  {
    if |s| > 0 && IsDigit(s[0]) {
      var d := LeadingDigits(s);
      var t := LeadingDigits(s[1..]);
      var dc := s[0] as int - '0' as int;
      var next := acc * 10 + dc;
      assert d == [s[0]] + t;
      DigitsValueCons(s[0], t);
      assert Pow10(|d|) == 10 * Pow10(|t|);
      ShiftDigit(acc, dc, Pow10(|t|), DigitsValue(t));
      if next <= MaxUint64 {
        OverflowsValue(s[1..], next);
      }
    }
  }

  /** A range error is exactly a leading digit run whose value exceeds 2^64 - 1. */
  lemma RangeOverflowValue(s: string)
    ensures RangeOverflow(s) <==> DigitsValue(LeadingDigits(Unsigned(s))) > MaxUint64
  {
    OverflowsValue(Unsigned(s), 0);
  }

  /** The value `strconv.Atoi(s)` returns on a 64-bit platform, with its error
      ignored as the read path does (`dbId, _ := strconv.Atoi(...)`): the nearest
      64-bit bound on a range error, which takes precedence over a later syntax
      error, and zero on a syntax error. */
  function AtoiValue(s: string): (v: int)
    ensures MinInt64 <= v <= MaxInt64
    ensures !ParsesAsInt(s) && !RangeOverflow(s) ==> v == 0
    ensures RangeOverflow(s) ==> v == (if s[0] == '-' then MinInt64 else MaxInt64)
    ensures ParsesAsInt(s) && s[0] != '-' ==>
              v == DigitsValue(Unsigned(s)) || (DigitsValue(Unsigned(s)) > MaxInt64 && v == MaxInt64)
    ensures ParsesAsInt(s) && s[0] == '-' ==>
              v == 0 - DigitsValue(Unsigned(s)) as int || (0 - DigitsValue(Unsigned(s)) as int < MinInt64 && v == MinInt64)
  {
    if RangeOverflow(s) then
      RangeOverflowValue(s);
      LeadingDigitsAll(Unsigned(s));
      if s[0] == '-' then MinInt64 else MaxInt64
    else if !ParsesAsInt(s) then 0
    else
      var m: int := DigitsValue(Unsigned(s));
      if s[0] == '-' then (if -m < MinInt64 then MinInt64 else -m)
      else (if m > MaxInt64 then MaxInt64 else m)
  }

  /** A digit run past 2^64 - 1 followed by a non-digit, such as
      `99999999999999999999x`, is a range error rather than a syntax error: the value
      is the bound of the sign, not zero. */
  lemma AtoiRangeBeforeSyntax(d: string, rest: string)
    requires AllDigits(d) && DigitsValue(d) > MaxUint64
    requires |rest| > 0 && !IsDigit(rest[0])
    ensures !ParsesAsInt(d + rest) && AtoiValue(d + rest) == MaxInt64
    ensures !ParsesAsInt("-" + d + rest) && AtoiValue("-" + d + rest) == MinInt64
  {
    assert |d| > 0;
    assert (d + rest)[0] == d[0];
    assert Unsigned(d + rest) == d + rest;
    assert ("-" + d + rest)[1..] == d + rest;
    LeadingDigitsAppend(d, rest);
    assert (d + rest)[|d|] == rest[0];
    RangeOverflowValue(d + rest);
    RangeOverflowValue("-" + d + rest);
  }

  /** Parsing a rendered id recovers it, for every id a signed 64-bit integer can hold. */
  lemma AtoiDecimal(n: nat)
    requires n <= MaxInt64
    ensures AtoiValue(Decimal(n)) == n
  {
    var s := Decimal(n);
    assert s[0] != '+' && s[0] != '-';
    assert Unsigned(s) == s;
    DecimalRoundTrip(n);
  }

  /** Go's `uint(i)` for a 64-bit `int`: two's-complement reinterpretation. */
  function ToUint64(i: int): (r: nat)
    requires MinInt64 <= i <= MaxInt64
    ensures r < Two64
    ensures (r - i) % Two64 == 0
    ensures 0 <= i ==> r == i
  {
    if i < 0 then i + Two64 else i
  }

  /** The code point ranges `unicode.IsSpace` accepts: the Latin-1 spaces plus the other
      code points with the Unicode White_Space property, as inclusive bounds. */
  const SpaceRanges: seq<(int, int)> := [
    (0x09, 0x0D), (0x20, 0x20), (0x85, 0x85), (0xA0, 0xA0), (0x1680, 0x1680),
    (0x2000, 0x200A), (0x2028, 0x2029), (0x202F, 0x202F), (0x205F, 0x205F), (0x3000, 0x3000)
  ]

  predicate InRanges(n: int, ranges: seq<(int, int)>) {
    |ranges| > 0 && (ranges[0].0 <= n <= ranges[0].1 || InRanges(n, ranges[1..]))
  }

  /** Go's `unicode.IsSpace`. */
  predicate IsSpace(c: char) {
    InRanges(c as int, SpaceRanges)
  }

  /** The characters `unicode.IsSpace` accepts: the Latin-1 white space `\t`, `\n`,
      `\v`, `\f`, `\r`, space, U+0085 and U+00A0, and above Latin-1 the Unicode
      White_Space characters U+1680, U+2000 to U+200A, U+2028, U+2029, U+202F, U+205F
      and U+3000. */
  lemma IsSpaceChars(c: char)
    ensures IsSpace(c) <==>
              || c in {'\t', '\n', '\U{0B}', '\U{0C}', '\r', ' ', '\U{85}', '\U{A0}'}
              || c in {'\U{1680}', '\U{2028}', '\U{2029}', '\U{202F}', '\U{205F}', '\U{3000}'}
              || '\U{2000}' <= c <= '\U{200A}'
  {
    SpaceCodes(c as int);
  }

  /** The table of white-space ranges, read as code points. */
  lemma SpaceCodes(n: int)
    ensures InRanges(n, SpaceRanges) <==>
              || 0x09 <= n <= 0x0D || n == 0x20 || n == 0x85 || n == 0xA0 || n == 0x1680
              || 0x2000 <= n <= 0x200A || n == 0x2028 || n == 0x2029 || n == 0x202F
              || n == 0x205F || n == 0x3000
  {
    var r := SpaceRanges;
    assert r[0..] == r;
    InRangesStep(n, r, 0); InRangesStep(n, r, 1); InRangesStep(n, r, 2); InRangesStep(n, r, 3);
    InRangesStep(n, r, 4); InRangesStep(n, r, 5); InRangesStep(n, r, 6); InRangesStep(n, r, 7);
    InRangesStep(n, r, 8); InRangesStep(n, r, 9);
    assert !InRanges(n, r[10..]);
  }

  lemma InRangesStep(n: int, ranges: seq<(int, int)>, k: nat)
    requires k < |ranges|
    ensures InRanges(n, ranges[k..]) <==> (ranges[k].0 <= n <= ranges[k].1 || InRanges(n, ranges[k + 1..]))
  {
    assert ranges[k..][1..] == ranges[k + 1..];
  }

  predicate AllSpace(s: string) {
    forall i :: 0 <= i < |s| ==> IsSpace(s[i])
  }

  lemma AllSpaceCons(c: char, s: string)
    requires IsSpace(c) && AllSpace(s)
    ensures AllSpace([c] + s)
  {
    assert forall i :: 0 < i <= |s| ==> ([c] + s)[i] == s[i - 1];
  }

  /** `s` without its leading white space: a suffix of `s` that does not start with a space,
      and everything dropped is white space. */
  function TrimLeft(s: string): (r: string)
    ensures |r| <= |s| && r == s[|s| - |r|..]
    ensures |r| > 0 ==> !IsSpace(r[0])
    ensures AllSpace(s[..|s| - |r|])
  {
    if |s| > 0 && IsSpace(s[0]) then
      var t := s[1..];
      var r := TrimLeft(t);
      assert t[|t| - |r|..] == s[|s| - |r|..];
      AllSpaceCons(s[0], t[..|t| - |r|]);
      assert [s[0]] + t[..|t| - |r|] == s[..|s| - |r|];
      r
    else s
  }

  /** `s` without its trailing white space: a prefix of `s` that does not end with a space,
      and everything dropped is white space. */
  function TrimRight(s: string): (r: string)
    ensures |r| <= |s| && r == s[..|r|]
    ensures |r| > 0 ==> !IsSpace(r[|r| - 1])
    ensures AllSpace(s[|r|..])
  {
    if |s| > 0 && IsSpace(s[|s| - 1]) then
      var r := TrimRight(s[..|s| - 1]);
      assert s[|r|..] == s[..|s| - 1][|r|..] + [s[|s| - 1]];
      r
    else s
  }

  /** Removing trailing space from a string that starts with a non-space keeps that start. */
  lemma TrimRightKeepsStart(l: string)
    requires |l| > 0 ==> !IsSpace(l[0])
    ensures var r := TrimRight(l); |r| > 0 ==> !IsSpace(r[0])
  {
    var r := TrimRight(l);
    if |r| > 0 {
      assert r[0] == l[0];
    }
  }

  /** A prefix `r` of a suffix `l` of `s`, with only white space cut off on either side,
      sits in `s` where `l` starts. */
  lemma InfixLayout(s: string, l: string, r: string)
    requires |l| <= |s| && l == s[|s| - |l|..] && AllSpace(s[..|s| - |l|])
    requires |r| <= |l| && r == l[..|r|] && AllSpace(l[|r|..])
    ensures var k := |s| - |l|;
            Seqs.OccursAt(s, r, k) && AllSpace(s[..k]) && AllSpace(s[k + |r|..])
  {
    var k := |s| - |l|;
    assert s[k..k + |r|] == l[..|r|];
    assert s[k + |r|..] == l[|r|..];
  }

  /** Go's `strings.TrimSpace`: the infix of `s` left after removing white space at both ends. */
  function TrimSpace(s: string): (r: string)
    ensures |r| > 0 ==> !IsSpace(r[0]) && !IsSpace(r[|r| - 1])
    ensures exists k :: Seqs.OccursAt(s, r, k) && AllSpace(s[..k]) && AllSpace(s[k + |r|..])
  {
    var l := TrimLeft(s);
    var r := TrimRight(l);
    var k := |s| - |l|;
    InfixLayout(s, l, r);
    assert Seqs.OccursAt(s, r, k) && AllSpace(s[..k]) && AllSpace(s[k + |r|..]);
    TrimRightKeepsStart(l);
    r
  }

  /** Trimming twice is trimming once. */
  lemma TrimSpaceIdempotent(s: string)
    ensures TrimSpace(TrimSpace(s)) == TrimSpace(s)
  {
  }

  /** Go's `<` on strings: lexicographic order in which a proper prefix comes first.
      (Dafny's own `<` on sequences means "proper prefix", which is not a total order.) */
  predicate Less(a: string, b: string)
  {
    if |a| == 0 then |b| > 0
    else if |b| == 0 then false
    else if a[0] < b[0] then true
    else a[0] == b[0] && Less(a[1..], b[1..])
  }

  lemma {:induction false} LessIrreflexive(a: string)
    ensures !Less(a, a)
  {
    if |a| > 0 {
      LessIrreflexive(a[1..]);
    }
  }

  lemma {:induction false} LessTransitive(a: string, b: string, c: string)
    requires Less(a, b) && Less(b, c)
    ensures Less(a, c)
  {
    if |a| > 0 && |b| > 0 && |c| > 0 && a[0] == b[0] && b[0] == c[0] {
      LessTransitive(a[1..], b[1..], c[1..]);
    }
  }

  /** Any two different strings are ordered one way or the other. */
  lemma {:induction false} LessTotal(a: string, b: string)
    requires a != b
    ensures Less(a, b) || Less(b, a)
  {
    if |a| > 0 && |b| > 0 && a[0] == b[0] {
      assert a == [a[0]] + a[1..] && b == [b[0]] + b[1..];
      LessTotal(a[1..], b[1..]);
    }
  }

  /** "Not greater" is transitive, the fact a sort's correctness rests on. */
  lemma NotLessTransitive(a: string, b: string, c: string)
    requires !Less(b, a) && !Less(c, b)
    ensures !Less(c, a)
  {
    if Less(c, a) {
      if a == b {
      } else {
        LessTotal(a, b);
        LessTransitive(c, a, b);
      }
    }
  }
}
